=== FILE: README.md ===
# codespell pull-request action — a Dafny model of its entry point

The action runs on a pull-request event. It fetches the pull request's
unified diff and collects the lines the diff adds, file by file. It splits
each added line into tokens and looks every lower-cased token up in
codespell's misspelling dictionary. When at least one token matches, it posts
one Markdown comment listing every match with its suggested correction.
All of this lives in `entrypoint.py`.

The model is in seven modules, one concept each:

- `Wrappers` (wrappers.dfy): `Option`.
- `Assoc` (assoc.dfy): Python's insertion-ordered `dict` of lists, kept as an
  association list. `Append` is `d.setdefault(k, []).append(v)`. The module also
  holds the reference that the script's nested loops are proved against: a
  stream of `(key, value)` events grouped by key (`Group`, `Select`, `Distinct`),
  and a list of per-key blocks with the empty ones dropped (`Flatten`, `NonEmptyOnly`).
- `Patch` (patch.dfy): `get_patched_files` over an already parsed patch set,
  which is a list of files, each a list of hunks, each a list of lines.
- `Spelling` (spelling.dfy): `check_spelling`. The tokenizer
  (`word_regex.findall`), `str.lower` and codespell's `fix_case` are parameters,
  bundled in `Library`; the dictionary is a parameter too.
- `Decimal` (decimal.dfy): `'{0:d}'.format(n)` for a line number.
- `Comment` (comment.dfy): the body `comment_pr` builds, and the rule that
  nothing is posted for an empty fix map.
- `Entrypoint` (entrypoint.dfy): the guard chain of `main`, its return codes,
  and one whole run with the fetched diff given as input.

Each loop of the script is written as a left fold that mirrors the `for`
statements: `AddFiles`/`AddHunks`/`AddLines` and
`CheckFiles`/`CheckLines`/`CheckWords`. Each fold is proved equal to an
independent reference definition. The properties are then proved about that
reference. `BuildBody` is the body-building loop of `comment_pr` written as a
method with two nested `while` loops. It is proved equal to the recursive
definition `Body`, and `Body` is proved to split into the expected lines.

Three behaviours of the code are easy to misread:

- A missing or unreadable event file makes the code raise rather than return 1.
  Only a parsed payload that is empty (falsy) returns 1.
- The dictionary entry's only field that is read is `data`. Case restoration
  is whatever `fix_case` does, so it is a parameter.
- The process exit status is not the value `main` returns; see Findings.

## Model

| member | source | states |
|---|---|---|
| Assoc.Append | entrypoint.py:29-30 | `setdefault(k, []).append(v)` keeps the key order when `k` is present and adds `k` last when it is new; the list under `k` gains `v` at its end |
| Assoc.AppendOther | entrypoint.py:29-30 | the append leaves the list under every other key unchanged |
| Assoc.AppendValid | entrypoint.py:29-30 | the append keeps every key unique and every list non-empty |
| Assoc.GroupSpec | entrypoint.py:23-30 | folding `setdefault(...).append` over an event stream from `{}` gives a dictionary whose keys are the distinct event keys in first-occurrence order and whose list under each key is exactly that key's values in stream order |
| Assoc.GroupBlocks | entrypoint.py:35-42 | when the blocks have distinct keys, grouping their flattened events gives the blocks themselves minus the empty ones |
| Assoc.GetNonEmptyOnly | entrypoint.py:40-42 | dropping the empty blocks changes no lookup, and a key survives exactly when its list is non-empty |
| Patch.TargetLines | entrypoint.py:27 | `hunk.target_lines()` keeps every line of the hunk that has a target line number and only such lines, in their order in the hunk |
| Patch.TargetLinesCount | entrypoint.py:27 | each line with a target line number is kept as often as it occurs in the hunk, and no other line is kept |
| Patch.TargetLinesAgree | entrypoint.py:27 | when every line is numbered as the parser numbers it, picking the added and context lines picks the same lines as picking those with a target number |
| Patch.AddLinesGroups | entrypoint.py:27-30 | the loop over a hunk's target lines appends, under the file's path, the hunk's added lines as (target number, text), in order |
| Patch.AddHunksGroups | entrypoint.py:26-30 | the loop over a file's hunks appends the file's added lines under its path, hunk after hunk |
| Patch.AddFilesGroups | entrypoint.py:24-30 | the loop over the files appends every file's added lines under its path, file after file |
| Patch.GetPatchedFiles | entrypoint.py:21-31 | the result lists each path once, never with an empty list, and the paths come in the order of their first file with an added line |
| Patch.GetPatchedFilesIsGrouping | entrypoint.py:21-31 | the three nested loops compute the grouping by path of the added lines of every file, in patch, hunk and line order |
| Patch.GetPatchedFilesLines | entrypoint.py:21-31 | under each path the result holds exactly the added lines of the files with that path, as (target line number, text), in order |
| Patch.GetPatchedFilesHasKey | entrypoint.py:21-31 | a path is a key if and only if some file with that path adds a line |
| Patch.GetPatchedFilesDistinctPaths | entrypoint.py:21-31 | when no two files share a path, the result is each file with added lines, in patch order |
| Patch.GetPatchedFilesEmpty | entrypoint.py:21-31 | the result is empty if and only if the patch set adds no line |
| Patch.AddedInHunkExact | entrypoint.py:27-30 | every added line of a hunk is extracted, and everything extracted is an added line; context and removed lines contribute nothing |
| Patch.AddedLineListed | entrypoint.py:24-30 | a pair is listed under a path if and only if some file with that path has an added line with that target number and text |
| Spelling.Misspelled | entrypoint.py:38-40 | every kept token's lower-case form is a dictionary key |
| Spelling.MisspelledCount | entrypoint.py:38-40 | every misspelled token is kept as often as it occurs, and no other token is kept |
| Spelling.WordFixes | entrypoint.py:38-42 | one fix per misspelled token, in token order, carrying the line number, the token as written and its case-restored correction |
| Spelling.CheckWordsGroups | entrypoint.py:38-42 | the loop over a line's tokens appends, under the file name, one fix per misspelled token in token order |
| Spelling.CheckLinesGroups | entrypoint.py:37-42 | the loop over a file's lines appends the fixes of its lines under the file name, line after line |
| Spelling.CheckFilesGroups | entrypoint.py:36-42 | the loop over the file names appends each file's fixes under its name, file after file |
| Spelling.CheckSpelling | entrypoint.py:34-43 | the fix map lists each file once and never with an empty list |
| Spelling.CheckSpellingIsReference | entrypoint.py:34-43 | the three nested loops compute, for each input file in order, the fixes of its lines, keeping only files that have fixes |
| Spelling.CheckSpellingFile | entrypoint.py:34-43 | under each file the result holds exactly the fixes of that file's lines, in line order and token order within a line |
| Spelling.CheckSpellingHasKey | entrypoint.py:34-43 | a file is a key of the result if and only if it is a key of the input and one of its tokens is misspelled |
| Spelling.CheckSpellingKeyOrder | entrypoint.py:34-43 | the result's files keep their relative input order, each once, never with an empty list |
| Spelling.LineFixesExact | entrypoint.py:38-42 | a line's fixes are exactly its misspelled tokens, each with the line number and `fix_case(word, entry.data)` |
| Spelling.FileFixesSound | entrypoint.py:37-42 | every fix of a file comes from a misspelled token of one of its lines and carries that line's number |
| Spelling.FileFixesComplete | entrypoint.py:37-42 | every misspelled token of every line of a file yields its fix |
| Spelling.ThsiExample | entrypoint.py:34-43 | the line `Thsi is a test` added at line 5 of `a.txt`, with `thsi` mapped to `this`, yields exactly the fix (5, `Thsi`, `This`) |
| Decimal.FromNat | entrypoint.py:54 | `{0:d}` renders a line number as non-empty ASCII digits without leading zeros |
| Decimal.ToNatFromNat | entrypoint.py:54 | reading a rendered line number back gives the number |
| Decimal.FromNatInjective | entrypoint.py:54 | two line numbers render alike if and only if they are equal |
| Decimal.FromNatToNat | entrypoint.py:54 | every canonical digit string is the rendering of the number it denotes |
| Comment.FileTextFields | entrypoint.py:52 | a file heading is `- ` followed by the path in back-quotes |
| Comment.FixTextFields | entrypoint.py:53-56 | a fix line is `  - line `, then digits that read back as the line number, then `: ` and the word and its correction, each in back-quotes, joined by ` => ` |
| Comment.BuildBody | entrypoint.py:50-56 | the two nested body-building loops produce `Body(fixes)`: the header line, then per file its heading and its fix lines |
| Comment.CommentToPost | entrypoint.py:46-57 | a comment is posted if and only if the fix map is non-empty; it starts with the header `Possible misspellings:` and is the header line, then per file its heading line and its fix lines, each ended by a newline |
| Comment.BodyLines | entrypoint.py:50-56 | the body has one line for the header, one per file and one per fix, the header first |
| Comment.BodyAsLines | entrypoint.py:50-56 | the body is the header line, then per file its heading line followed by one line per fix, each ended by a newline |
| Comment.CommentLines | entrypoint.py:50-56 | when no path, word or suggestion contains a newline, splitting the body at newlines gives back exactly those lines |
| Comment.TwoFixesExample | entrypoint.py:50-56 | two fixes in one file render as the header, one file bullet and two nested bullets, in the order the fixes were found |
| Entrypoint.ReturnCode | entrypoint.py:61-91 | `main` returns 1 exactly on a missing token, an empty payload or a failed diff fetch, and 0 exactly on a non-pull-request event, an unhandled action or a processed diff |
| Entrypoint.Decide | entrypoint.py:61-80 | the diff is processed if and only if a token was given, the event is `pull_request`, the payload is non-empty, the action is `opened`, `edited` or `synchronize`, and the fetch answered 200 |
| Entrypoint.DecideIsFirstFailingGuard | entrypoint.py:61-80 | `main` stops at the first failing guard in source order |
| Entrypoint.EarlyReturn | entrypoint.py:61-80 | inputs read after the guard that stopped `main` cannot change where it stops |
| Entrypoint.Main | entrypoint.py:60-91 | in the model, a run raises exactly when every guard passes and the diff does not parse (the only exception modelled); otherwise it returns the guard's code, and any comment it posts comes after every guard passes and is the rendered fix map of the parsed diff |
| Entrypoint.FixesSound | entrypoint.py:81-84 | a non-empty fix map implies that some added line holds a token whose lower-case form is in the dictionary |
| Entrypoint.FixesComplete | entrypoint.py:81-84 | an added line holding such a token makes the fix map non-empty |
| Entrypoint.FixesIffMisspelledAddition | entrypoint.py:81-84 | the fix map is non-empty if and only if some added line holds a misspelled token |
| Entrypoint.MainPostsIffMisspelling | entrypoint.py:81-91 | once every guard passes and the diff parses, a run returns and posts a comment if and only if some added line holds a misspelled token, and the comment lists the fixes of the added lines, file by file |
| Entrypoint.ClosedActionIsNoOp | entrypoint.py:73-75 | a pull-request event with action `closed` returns 0 and posts nothing |
| Entrypoint.DiffNotFoundFails | entrypoint.py:76-80 | an `opened` event whose diff fetch answers 404 returns 1 and posts nothing |
| Entrypoint.AsWrittenFailsOnlyOnParseFailure | entrypoint.py:60-95 | as written, the process exits 1 exactly when every guard passes and the diff does not parse, and exits 0 on every return of `main`, including the ones that return 1 |
| Entrypoint.MissingTokenExitsZeroAsWritten | entrypoint.py:61-63 | with no token argument, `main` returns 1 and yet the process exits 0 |
| Entrypoint.ExitStatusClassifies | entrypoint.py:60-95 | with the value passed on, the process fails exactly on a usage, environment, network or parse failure, and succeeds exactly on a deliberate no-op or a processed diff |

## Left out

- The unified-diff parser (`unidiff.PatchSet`) is foreign code. The model takes its result, and `None` stands for a diff it rejects, which raises.
- `setup_dict` and codespell's `build_dict`, `default_dictionary`, `word_regex_def` and `fix_case` are foreign code; the dictionary and the three operations are parameters.
- `str.lower` follows Unicode case mapping; it is a parameter, so nothing about it is assumed.
- Reading the environment and the event file (`os.environ`, `open`, `json.loads`), and the `KeyError` a missing variable or payload field raises, are not modelled. The model sees only the event name, whether the payload is empty and its action.
- The HTTP fetch of the diff is not modelled beyond its status code and its body.
- Entrypoint.Main: exceptions other than a rejected diff are not modelled. These are a failed or hanging HTTP request (entrypoint.py:77, which sets no timeout), a failure of the hosting-service client while posting (entrypoint.py:48-49, 57) and a failure while loading the dictionary (entrypoint.py:17). So `Raised` stands only for a parse failure.
- Patch.TargetLines: selects by target line number, while the parser's `target_lines()` selects added and context lines by type. The two agree on lines numbered as the parser numbers them (`TargetLinesAgree`); lines that carry a type but not the matching numbering are outside the model.
- Posting the comment (`Github`, `get_repo`, `get_pull`, `create_issue_comment`) is not modelled. The model returns the body that would be posted.
- The diagnostic `print` calls are output only and change nothing.
- Python's dictionary is modelled only through insertion order and `setdefault(...).append`, the only update the script makes.
- The token value and the pull-request number and repository name are only passed to the hosting service, so they are not modelled.

## Findings

| source | as written | input that shows it | evidently intended | confidence | as-written member | corrected member |
|---|---|---|---|---|---|---|
| entrypoint.py:94-95 | `main()` is called and its return value is dropped, so the process exits 0 whenever `main` returns | no token argument: `main` returns 1 at line 63, yet the process exits 0; the same holds for an empty payload and for a failed diff fetch | `sys.exit(main())`: the process exit status is the code `main` returns, 1 for a failure and 0 for a no-op or success | high, not executed | Entrypoint.MissingTokenExitsZeroAsWritten | Entrypoint.ExitStatusClassifies |

=== FILE: assoc.dfy ===
/**
 An insertion-ordered dictionary from keys to lists, the shape of every
 dictionary the entry point builds. A Python `dict` remembers the order in
 which keys were first inserted, and the only update the script performs is
 `d.setdefault(k, []).append(v)`; both are modelled here on an association
 list `seq<(K, seq<V>)>`.

 The second half of the module is the reference the loops are checked
 against: grouping a stream of `(key, value)` events (`Group`) and grouping a
 list of already-formed blocks (`Flatten`, `NonEmptyOnly`).
 */
module Assoc {

  /** Keys in first-insertion order, each with its list of values. */
  type Assoc<K, V> = seq<(K, seq<V>)>

  /** The first components, in order: the keys of a dictionary in insertion
      order (`list(d)` in Python), or the key of every event of a stream. */
  function Keys<K, V>(m: seq<(K, V)>): (ks: seq<K>)
    ensures |ks| == |m|
    ensures forall i :: 0 <= i < |m| ==> ks[i] == m[i].0
  {
    if |m| == 0 then [] else [m[0].0] + Keys(m[1..])
  }

  /** No key occurs twice, as in any Python dictionary. */
  ghost predicate UniqueKeys<K, V>(m: Assoc<K, V>) {
    forall i, j :: 0 <= i < j < |m| ==> m[i].0 != m[j].0
  }

  /** No key maps to an empty list: a key is only created together with its first value. */
  ghost predicate NonEmptyValues<K, V>(m: Assoc<K, V>) {
    forall i :: 0 <= i < |m| ==> |m[i].1| > 0
  }

  /** The dictionaries that `setdefault(k, []).append(v)` can build from `{}`. */
  ghost predicate Valid<K, V>(m: Assoc<K, V>) {
    UniqueKeys(m) && NonEmptyValues(m)
  }

  /** The list stored under `k`, or the empty list when `k` is absent. */
  function Get<K(==), V>(m: Assoc<K, V>, k: K): (r: seq<V>)
    ensures k !in Keys(m) ==> r == []
    ensures UniqueKeys(m) ==> forall i :: 0 <= i < |m| && m[i].0 == k ==> r == m[i].1
  {
    if |m| == 0 then []
    else if m[0].0 == k then m[0].1
    else Get(m[1..], k)
  }

  /** `m.setdefault(k, []).append(v)`: extend the list under `k`, creating the key at the end if it is new. */
  function Append<K(==), V>(m: Assoc<K, V>, k: K, v: V): (r: Assoc<K, V>)
    ensures Keys(r) == if k in Keys(m) then Keys(m) else Keys(m) + [k]
    ensures Get(r, k) == Get(m, k) + [v]
  {
    if |m| == 0 then [(k, [v])]
    else if m[0].0 == k then
      var r := [(k, m[0].1 + [v])] + m[1..];
      assert r[1..] == m[1..];
      r
    else
      var t := Append(m[1..], k, v);
      var r := [m[0]] + t;
      assert r[1..] == t;
      assert k in Keys(m) <==> k in Keys(m[1..]) by { assert Keys(m) == [m[0].0] + Keys(m[1..]); }
      ConcatAssociative([m[0].0], Keys(m[1..]), [k]);
      r
  }

  /** Appending under `k` leaves every other key's list alone. */
  lemma {:induction false} AppendOther<K, V>(m: Assoc<K, V>, k: K, v: V, j: K)
    requires j != k
    ensures Get(Append(m, k, v), j) == Get(m, j)
  {
    if |m| > 0 && m[0].0 != k {
      AppendOther(m[1..], k, v, j);
    }
  }

  lemma UniqueKeysTail<K, V>(m: Assoc<K, V>)
    requires UniqueKeys(m) && |m| > 0
    ensures UniqueKeys(m[1..])
    ensures m[0].0 !in Keys(m[1..])
  {
    var t := m[1..];
    assert forall i :: 0 <= i < |t| ==> t[i] == m[i + 1];
  }

  lemma UniqueKeysCons<K, V>(b: (K, seq<V>), t: Assoc<K, V>)
    requires UniqueKeys(t) && b.0 !in Keys(t)
    ensures UniqueKeys([b] + t)
  {
    var r := [b] + t;
    assert forall i :: 1 <= i < |r| ==> r[i] == t[i - 1];
  }

  /** Appending keeps keys unique and lists non-empty. */
  lemma {:induction false} AppendValid<K, V>(m: Assoc<K, V>, k: K, v: V)
    requires Valid(m)
    ensures Valid(Append(m, k, v))
  {
    var r := Append(m, k, v);
    if |m| > 0 && m[0].0 == k {
      assert forall i :: 1 <= i < |r| ==> r[i] == m[i];
    } else if |m| > 0 {
      UniqueKeysTail(m);
      var t := Append(m[1..], k, v);
      AppendValid(m[1..], k, v);
      assert r == [m[0]] + t;
      assert m[0].0 !in Keys(t);
      UniqueKeysCons(m[0], t);
      assert forall i :: 1 <= i < |r| ==> r[i] == t[i - 1];
    }
  }

  lemma {:induction false} KeysConcat<K, V>(a: seq<(K, V)>, b: seq<(K, V)>)
    ensures Keys(a + b) == Keys(a) + Keys(b)
  {
    assert forall i :: 0 <= i < |a + b| ==> Keys(a + b)[i] == (Keys(a) + Keys(b))[i];
  }

  lemma GetKeyIffNonEmpty<K, V>(m: Assoc<K, V>, k: K)
    requires Valid(m)
    ensures k in Keys(m) <==> |Get(m, k)| > 0
  {
    if k in Keys(m) {
      var i :| 0 <= i < |m| && Keys(m)[i] == k;
    }
  }

  // ---------------------------------------------------------------------
  // Streams of events and the fold that mirrors the nested loops
  // ---------------------------------------------------------------------

  /** The values of the events whose key is `k`, in order. */
  function Select<K(==), V>(es: seq<(K, V)>, k: K): (r: seq<V>)
    ensures |r| <= |es|
    ensures |r| == 0 <==> k !in Keys(es)
  {
    if |es| == 0 then []
    else (if es[0].0 == k then [es[0].1] else []) + Select(es[1..], k)
  }

  /** The keys of `ks` that are not in `seen`, each once, in order of first occurrence. */
  function NewKeys<K(==)>(seen: seq<K>, ks: seq<K>): (r: seq<K>)
    ensures forall i :: 0 <= i < |r| ==> r[i] in ks && r[i] !in seen
    ensures forall i :: 0 <= i < |ks| && ks[i] !in seen ==> ks[i] in r
    ensures forall i, j :: 0 <= i < j < |r| ==> r[i] != r[j]
    decreases |ks|
  {
    if |ks| == 0 then []
    else if ks[0] in seen then NewKeys(seen, ks[1..])
    else [ks[0]] + NewKeys(seen + [ks[0]], ks[1..])
  }

  /** The distinct elements of `ks` in order of first occurrence. */
  function Distinct<K(==)>(ks: seq<K>): seq<K> {
    NewKeys([], ks)
  }

  /** Apply `setdefault(k, []).append(v)` for every event `(k, v)`, left to right. */
  function GroupInto<K(==), V>(m: Assoc<K, V>, es: seq<(K, V)>): Assoc<K, V>
    decreases |es|
  {
    if |es| == 0 then m
    else GroupInto(Append(m, es[0].0, es[0].1), es[1..])
  }

  /** Group a stream of events into a fresh dictionary. */
  function Group<K(==), V>(es: seq<(K, V)>): Assoc<K, V> {
    GroupInto([], es)
  }

  lemma ConcatAssociative<T>(a: seq<T>, b: seq<T>, c: seq<T>)
    ensures a + b + c == a + (b + c)
  {
  }

  lemma {:induction false} GroupIntoValid<K, V>(m: Assoc<K, V>, es: seq<(K, V)>)
    requires Valid(m)
    ensures Valid(GroupInto(m, es))
    decreases |es|
  {
    if |es| > 0 {
      AppendValid(m, es[0].0, es[0].1);
      GroupIntoValid(Append(m, es[0].0, es[0].1), es[1..]);
    }
  }

  lemma {:induction false} GroupIntoConcat<K, V>(m: Assoc<K, V>, es: seq<(K, V)>, fs: seq<(K, V)>)
    ensures GroupInto(m, es + fs) == GroupInto(GroupInto(m, es), fs)
    decreases |es|
  {
    if |es| == 0 {
      assert es + fs == fs;
    } else {
      assert (es + fs)[0] == es[0];
      assert (es + fs)[1..] == es[1..] + fs;
      GroupIntoConcat(Append(m, es[0].0, es[0].1), es[1..], fs);
    }
  }

  /** Grouping adds exactly the events' values under each key, in stream order. */
  lemma {:induction false} GroupIntoGet<K, V>(m: Assoc<K, V>, es: seq<(K, V)>, k: K)
    ensures Get(GroupInto(m, es), k) == Get(m, k) + Select(es, k)
    decreases |es|
  {
    if |es| > 0 {
      var m' := Append(m, es[0].0, es[0].1);
      assert GroupInto(m, es) == GroupInto(m', es[1..]);
      GroupIntoGet(m', es[1..], k);
      var head := if es[0].0 == k then [es[0].1] else [];
      assert Select(es, k) == head + Select(es[1..], k);
      if es[0].0 == k {
        assert Get(m', k) == Get(m, k) + head;
      } else {
        AppendOther(m, es[0].0, es[0].1, k);
        assert Get(m', k) == Get(m, k) + head;
      }
      ConcatAssociative(Get(m, k), head, Select(es[1..], k));
    }
  }

  /** Grouping appends the new keys in the order the stream first mentions them. */
  lemma {:induction false} GroupIntoKeys<K, V>(m: Assoc<K, V>, es: seq<(K, V)>)
    ensures Keys(GroupInto(m, es)) == Keys(m) + NewKeys(Keys(m), Keys(es))
    decreases |es|
  {
    if |es| > 0 {
      var k := es[0].0;
      var m' := Append(m, k, es[0].1);
      GroupIntoKeys(m', es[1..]);
      assert GroupInto(m, es) == GroupInto(m', es[1..]);
      var ks := Keys(es);
      assert ks[0] == k;
      assert ks[1..] == Keys(es[1..]);
      if k in Keys(m) {
        assert NewKeys(Keys(m), ks) == NewKeys(Keys(m), ks[1..]);
      } else {
        assert NewKeys(Keys(m), ks) == [k] + NewKeys(Keys(m) + [k], ks[1..]);
        ConcatAssociative(Keys(m), [k], NewKeys(Keys(m) + [k], ks[1..]));
      }
    }
  }

  /** What grouping a whole stream produces: a valid dictionary whose keys are the
      stream's distinct keys in first-occurrence order, each holding exactly the
      values the stream carried for it. */
  lemma GroupSpec<K, V>(es: seq<(K, V)>)
    ensures Valid(Group(es))
    ensures Keys(Group(es)) == Distinct(Keys(es))
    ensures forall k :: Get(Group(es), k) == Select(es, k)
  {
    GroupIntoValid([], es);
    GroupIntoKeys([], es);
    forall k ensures Get(Group(es), k) == Select(es, k) {
      GroupIntoGet([], es, k);
    }
  }

  // ---------------------------------------------------------------------
  // Blocks: a list of (key, values) pairs, flattened into events
  // ---------------------------------------------------------------------

  /** One event `(k, v)` per value `v`. */
  function Tag<K, V>(k: K, vs: seq<V>): (es: seq<(K, V)>)
    ensures |es| == |vs|
    ensures forall i :: 0 <= i < |vs| ==> es[i] == (k, vs[i])
  {
    if |vs| == 0 then [] else [(k, vs[0])] + Tag(k, vs[1..])
  }

  lemma {:induction false} TagConcat<K, V>(k: K, a: seq<V>, b: seq<V>)
    ensures Tag(k, a + b) == Tag(k, a) + Tag(k, b)
  {
    assert forall i :: 0 <= i < |a + b| ==> Tag(k, a + b)[i] == (Tag(k, a) + Tag(k, b))[i];
  }

  /** The events of every block, block after block. */
  function Flatten<K, V>(blocks: Assoc<K, V>): seq<(K, V)> {
    if |blocks| == 0 then [] else Tag(blocks[0].0, blocks[0].1) + Flatten(blocks[1..])
  }

  /** The blocks whose value list is non-empty, in their original order. */
  function NonEmptyOnly<K, V>(blocks: Assoc<K, V>): (r: Assoc<K, V>)
    ensures NonEmptyValues(r)
  {
    if |blocks| == 0 then []
    else (if |blocks[0].1| == 0 then [] else [blocks[0]]) + NonEmptyOnly(blocks[1..])
  }

  lemma NonEmptyOnlyCons<K, V>(blocks: Assoc<K, V>)
    requires |blocks| > 0
    ensures NonEmptyOnly(blocks) == NonEmptyOnly([blocks[0]]) + NonEmptyOnly(blocks[1..])
  {
    var b := blocks[0];
    assert [b][1..] == [];
    var head := if |b.1| == 0 then [] else [b];
    assert NonEmptyOnly([b]) == head + NonEmptyOnly([]);
    assert head + [] == head;
  }

  /** Dropping the empty blocks changes no lookup, and a key survives exactly
      when its list is non-empty. */
  lemma {:induction false} GetNonEmptyOnly<K, V>(bs: Assoc<K, V>, k: K)
    requires UniqueKeys(bs)
    ensures Get(NonEmptyOnly(bs), k) == Get(bs, k)
    ensures k in Keys(NonEmptyOnly(bs)) <==> k in Keys(bs) && |Get(bs, k)| > 0
  {
    if |bs| > 0 {
      var b := bs[0];
      var rest := bs[1..];
      var r := NonEmptyOnly(rest);
      UniqueKeysTail(bs);
      GetNonEmptyOnly(rest, k);
      NonEmptyOnlyCons(bs);
      assert Keys(bs) == [b.0] + Keys(rest);
      if |b.1| == 0 {
        assert NonEmptyOnly(bs) == r by { assert NonEmptyOnly([b]) == []; }
      } else {
        assert NonEmptyOnly(bs) == [b] + r by { assert NonEmptyOnly([b]) == [b]; }
        assert ([b] + r)[1..] == r;
        assert Keys([b] + r) == [b.0] + Keys(r);
      }
    }
  }

  /** `xs` can be obtained from `ys` by deleting elements: same elements, same relative order. */
  ghost predicate IsSubsequence<T>(xs: seq<T>, ys: seq<T>)
    decreases |ys|
  {
    if |xs| == 0 then true
    else if |ys| == 0 then false
    else (xs[0] == ys[0] && IsSubsequence(xs[1..], ys[1..])) || IsSubsequence(xs, ys[1..])
  }

  /** Dropping the empty blocks keeps the remaining keys in their relative order. */
  lemma {:induction false} NonEmptyOnlyKeysSubsequence<K, V>(blocks: Assoc<K, V>)
    ensures IsSubsequence(Keys(NonEmptyOnly(blocks)), Keys(blocks))
  {
    if |blocks| > 0 {
      var rest := blocks[1..];
      NonEmptyOnlyKeysSubsequence(rest);
      NonEmptyOnlyCons(blocks);
      KeysConcat(NonEmptyOnly([blocks[0]]), NonEmptyOnly(rest));
      assert Keys(blocks)[1..] == Keys(rest);
      if |blocks[0].1| == 0 {
        assert NonEmptyOnly([blocks[0]]) == [];
        assert Keys(NonEmptyOnly(blocks)) == Keys(NonEmptyOnly(rest));
      } else {
        assert NonEmptyOnly([blocks[0]]) == [blocks[0]];
        var ks := Keys(NonEmptyOnly(blocks));
        assert ks[0] == blocks[0].0;
        assert ks[1..] == Keys(NonEmptyOnly(rest));
      }
    }
  }

  /** The concatenation of the lists of every block whose key is `k`. */
  function Gather<K(==), V>(blocks: Assoc<K, V>, k: K): seq<V> {
    if |blocks| == 0 then []
    else (if blocks[0].0 == k then blocks[0].1 else []) + Gather(blocks[1..], k)
  }

  lemma {:induction false} AppendNew<K, V>(m: Assoc<K, V>, k: K, v: V)
    requires k !in Keys(m)
    ensures Append(m, k, v) == m + [(k, [v])]
  {
    if |m| > 0 {
      assert Keys(m)[0] == m[0].0;
      assert Keys(m[1..]) == Keys(m)[1..];
      AppendNew(m[1..], k, v);
      ConcatAssociative([m[0]], m[1..], [(k, [v])]);
      assert [m[0]] + m[1..] == m;
    }
  }

  lemma {:induction false} AppendLast<K, V>(m: Assoc<K, V>, k: K, xs: seq<V>, v: V)
    requires k !in Keys(m)
    ensures Append(m + [(k, xs)], k, v) == m + [(k, xs + [v])]
  {
    if |m| == 0 {
      assert m + [(k, xs)] == [(k, xs)];
    } else {
      assert Keys(m)[0] == m[0].0;
      assert Keys(m[1..]) == Keys(m)[1..];
      var n := m + [(k, xs)];
      assert n[0] == m[0];
      assert n[1..] == m[1..] + [(k, xs)];
      AppendLast(m[1..], k, xs, v);
      ConcatAssociative([m[0]], m[1..], [(k, xs + [v])]);
      assert [m[0]] + m[1..] == m;
    }
  }

  lemma {:induction false} GroupIntoTag<K, V>(m: Assoc<K, V>, k: K, xs: seq<V>, ys: seq<V>)
    requires k !in Keys(m)
    ensures GroupInto(m + [(k, xs)], Tag(k, ys)) == m + [(k, xs + ys)]
    decreases |ys|
  {
    if |ys| == 0 {
      assert xs + ys == xs;
    } else {
      var n := m + [(k, xs)];
      var es := Tag(k, ys);
      assert es[0] == (k, ys[0]);
      assert es[1..] == Tag(k, ys[1..]);
      assert GroupInto(n, es) == GroupInto(Append(n, k, ys[0]), es[1..]);
      AppendLast(m, k, xs, ys[0]);
      GroupIntoTag(m, k, xs + [ys[0]], ys[1..]);
      ConcatAssociative(xs, [ys[0]], ys[1..]);
      assert [ys[0]] + ys[1..] == ys;
    }
  }

  lemma GroupIntoStep<K, V>(m: Assoc<K, V>, e: (K, V), rest: seq<(K, V)>)
    ensures GroupInto(m, [e] + rest) == GroupInto(Append(m, e.0, e.1), rest)
  {
    assert ([e] + rest)[1..] == rest;
  }

  lemma GroupIntoTagNew<K, V>(m: Assoc<K, V>, k: K, vs: seq<V>)
    requires k !in Keys(m) && |vs| > 0
    ensures GroupInto(m, Tag(k, vs)) == m + [(k, vs)]
  {
    var rest := Tag(k, vs[1..]);
    assert Tag(k, vs) == [(k, vs[0])] + rest;
    GroupIntoStep(m, (k, vs[0]), rest);
    AppendNew(m, k, vs[0]);
    GroupIntoTag(m, k, [vs[0]], vs[1..]);
    assert [vs[0]] + vs[1..] == vs;
  }

  /** Grouping one block whose key is new appends that block, unless it is empty. */
  lemma GroupIntoBlock<K, V>(m: Assoc<K, V>, k: K, vs: seq<V>)
    requires k !in Keys(m)
    ensures GroupInto(m, Tag(k, vs)) == m + NonEmptyOnly([(k, vs)])
  {
    assert [(k, vs)][1..] == [];
    if |vs| > 0 {
      GroupIntoTagNew(m, k, vs);
      assert NonEmptyOnly([(k, vs)]) == [(k, vs)];
    } else {
      assert NonEmptyOnly([(k, vs)]) == [];
    }
  }

  lemma {:induction false} GroupIntoBlocks<K, V>(m: Assoc<K, V>, blocks: Assoc<K, V>)
    requires UniqueKeys(blocks)
    requires forall i :: 0 <= i < |blocks| ==> blocks[i].0 !in Keys(m)
    ensures GroupInto(m, Flatten(blocks)) == m + NonEmptyOnly(blocks)
    decreases |blocks|
  {
    if |blocks| == 0 {
    } else {
      var b := blocks[0];
      var rest := blocks[1..];
      assert Flatten(blocks) == Tag(b.0, b.1) + Flatten(rest);
      GroupIntoConcat(m, Tag(b.0, b.1), Flatten(rest));
      GroupIntoBlock(m, b.0, b.1);
      var m' := m + NonEmptyOnly([b]);
      assert GroupInto(m, Flatten(blocks)) == GroupInto(m', Flatten(rest));
      KeysConcat(m, NonEmptyOnly([b]));
      forall i | 0 <= i < |rest|
        ensures rest[i].0 !in Keys(m')
      {
        assert rest[i] == blocks[i + 1];
      }
      GroupIntoBlocks(m', rest);
      NonEmptyOnlyCons(blocks);
      ConcatAssociative(m, NonEmptyOnly([b]), NonEmptyOnly(rest));
    }
  }

  /** Grouping blocks with distinct keys yields exactly the non-empty blocks. */
  lemma GroupBlocks<K, V>(blocks: Assoc<K, V>)
    requires UniqueKeys(blocks)
    ensures Group(Flatten(blocks)) == NonEmptyOnly(blocks)
  {
    GroupIntoBlocks([], blocks);
  }

  lemma {:induction false} SelectConcat<K, V>(a: seq<(K, V)>, b: seq<(K, V)>, k: K)
    ensures Select(a + b, k) == Select(a, k) + Select(b, k)
  {
    if |a| > 0 {
      assert (a + b)[0] == a[0];
      assert (a + b)[1..] == a[1..] + b;
      assert Select(a + b, k) == (if a[0].0 == k then [a[0].1] else []) + Select(a[1..] + b, k);
      SelectConcat(a[1..], b, k);
      ConcatAssociative(if a[0].0 == k then [a[0].1] else [], Select(a[1..], k), Select(b, k));
    } else {
      assert a + b == b;
    }
  }

  lemma {:induction false} SelectTag<K, V>(j: K, vs: seq<V>, k: K)
    ensures Select(Tag(j, vs), k) == if j == k then vs else []
  {
    if |vs| > 0 {
      assert Tag(j, vs)[1..] == Tag(j, vs[1..]);
      SelectTag(j, vs[1..], k);
      assert [vs[0]] + vs[1..] == vs;
    }
  }

  /** The events of key `k` in the flattened blocks are the lists of the blocks of key `k`. */
  lemma {:induction false} SelectFlatten<K, V>(blocks: Assoc<K, V>, k: K)
    ensures Select(Flatten(blocks), k) == Gather(blocks, k)
  {
    if |blocks| > 0 {
      SelectConcat(Tag(blocks[0].0, blocks[0].1), Flatten(blocks[1..]), k);
      SelectTag(blocks[0].0, blocks[0].1, k);
      SelectFlatten(blocks[1..], k);
    }
  }

  lemma {:induction false} NewKeysSkip<K, V>(seen: seq<K>, k: K, vs: seq<V>, rest: seq<K>)
    requires k in seen
    ensures NewKeys(seen, Keys(Tag(k, vs)) + rest) == NewKeys(seen, rest)
    decreases |vs|
  {
    var ks := Keys(Tag(k, vs)) + rest;
    if |vs| > 0 {
      assert ks[0] == k;
      assert Keys(Tag(k, vs))[1..] == Keys(Tag(k, vs[1..]));
      assert ks[1..] == Keys(Tag(k, vs[1..])) + rest;
      NewKeysSkip(seen, k, vs[1..], rest);
    } else {
      assert ks == rest;
    }
  }

  lemma NewKeysCons<K>(seen: seq<K>, k: K, ks: seq<K>)
    ensures NewKeys(seen, [k] + ks) ==
      if k in seen then NewKeys(seen, ks) else [k] + NewKeys(seen + [k], ks)
  {
    assert ([k] + ks)[1..] == ks;
  }

  /** A non-empty block counts like its key alone. */
  lemma NewKeysBlock<K, V>(seen: seq<K>, k: K, vs: seq<V>, tail: seq<K>)
    requires |vs| > 0
    ensures NewKeys(seen, Keys(Tag(k, vs)) + tail) == NewKeys(seen, [k] + tail)
  {
    var ks := Keys(Tag(k, vs)) + tail;
    assert ks[0] == k;
    assert Keys(Tag(k, vs))[1..] == Keys(Tag(k, vs[1..]));
    assert ks[1..] == Keys(Tag(k, vs[1..])) + tail;
    NewKeysCons(seen, k, tail);
    if k in seen {
      NewKeysSkip(seen, k, vs[1..], tail);
    } else {
      NewKeysSkip(seen + [k], k, vs[1..], tail);
    }
  }

  /** Order of first occurrence is the same whether one counts every event or
      only one key per non-empty block. */
  lemma {:induction false} NewKeysFlatten<K, V>(seen: seq<K>, blocks: Assoc<K, V>)
    ensures NewKeys(seen, Keys(Flatten(blocks))) == NewKeys(seen, Keys(NonEmptyOnly(blocks)))
    decreases |blocks|
  {
    if |blocks| > 0 {
      var b := blocks[0];
      var rest := blocks[1..];
      KeysConcat(Tag(b.0, b.1), Flatten(rest));
      var tail := Keys(Flatten(rest));
      NonEmptyOnlyCons(blocks);
      KeysConcat(NonEmptyOnly([b]), NonEmptyOnly(rest));
      NewKeysFlatten(seen, rest);
      if |b.1| == 0 {
        assert Keys(Tag(b.0, b.1)) + tail == tail;
        assert Keys(NonEmptyOnly(blocks)) == Keys(NonEmptyOnly(rest));
      } else {
        NewKeysBlock(seen, b.0, b.1, tail);
        assert Keys(NonEmptyOnly(blocks)) == [b.0] + Keys(NonEmptyOnly(rest));
        NewKeysCons(seen, b.0, Keys(NonEmptyOnly(rest)));
        NewKeysFlatten(seen + [b.0], rest);
      }
    }
  }
}

=== FILE: comment.dfy ===
/**
 The pull-request comment (`comment_pr` in entrypoint.py, without the calls
 to the hosting service). The body is a Markdown list: a header line, then for
 each file a bullet with the back-quoted path and, indented beneath it, one
 bullet per fix. Nothing is posted when there are no fixes.
 */
module Comment {
  import opened Wrappers
  import opened Assoc
  import Decimal
  import opened Spelling

  const HeaderText: string := "Possible misspellings:"

  /** `'- `{0!s}`'` without its newline. */
  function FileText(fname: string): string {
    "- `" + fname + "`"
  }

  /** `'  - line {0:d}: `{1!s}` => `{2!s}`'` without its newline. */
  function FixText(fx: Fix): string {
    "  - line " + Decimal.FromNat(fx.0) + ": `" + fx.1 + "` => `" + fx.2 + "`"
  }

  /** A file heading is a bullet holding the path in back-quotes. */
  lemma FileTextFields(fname: string)
    ensures var r := FileText(fname);
      && |r| == |fname| + 4
      && r[..3] == "- `" && r[3..|r| - 1] == fname && r[|r| - 1] == '`'
  {
    var r := FileText(fname);
    assert r[3..|r| - 1] == ("- `" + fname)[3..] == fname;
  }

  /** A fix line is a nested bullet whose digits after `line ` read back as
      the line number and end at the colon, followed by the word and its
      correction, each in back-quotes. */
  lemma FixTextFields(fx: Fix)
    ensures var r, n := FixText(fx), Decimal.FromNat(fx.0);
      && |r| == 19 + |n| + |fx.1| + |fx.2|
      && r[..9] == "  - line "
      && Decimal.AllDigits(r[9..9 + |n|]) && Decimal.ToNat(r[9..9 + |n|]) == fx.0
      && r[9 + |n|..12 + |n|] == ": `"
      && r[12 + |n|..12 + |n| + |fx.1|] == fx.1
      && r[12 + |n| + |fx.1|..18 + |n| + |fx.1|] == "` => `"
      && r[18 + |n| + |fx.1|..|r| - 1] == fx.2
      && r[|r| - 1] == '`'
  {
    var n := Decimal.FromNat(fx.0);
    Decimal.ToNatFromNat(fx.0);
    Pieces("  - line ", n, ": `", fx.1, "` => `", fx.2 + "`");
    var r := FixText(fx);
    assert r == "  - line " + n + ": `" + fx.1 + "` => `" + (fx.2 + "`");
    assert r[18 + |n| + |fx.1|..] == fx.2 + "`";
    assert r[18 + |n| + |fx.1|..|r| - 1] == (fx.2 + "`")[..|fx.2|] == fx.2;
  }

  /** Where each piece of a six-part concatenation sits. */
  lemma Pieces<T>(a: seq<T>, b: seq<T>, c: seq<T>, d: seq<T>, e: seq<T>, f: seq<T>)
    ensures var r := a + b + c + d + e + f;
      var i, j, k, l := |a| + |b|, |a| + |b| + |c|, |a| + |b| + |c| + |d|, |a| + |b| + |c| + |d| + |e|;
      && r[..|a|] == a && r[|a|..i] == b && r[i..j] == c && r[j..k] == d && r[k..l] == e && r[l..] == f
  {
    var p1 := a + b;
    var p2 := p1 + c;
    var p3 := p2 + d;
    var p4 := p3 + e;
    var r := p4 + f;
    assert r[|a|..|p1|] == p1[|a|..] == b;
    assert r[|p1|..|p2|] == p2[|p1|..] == c;
    assert r[|p2|..|p3|] == p3[|p2|..] == d;
    assert r[|p3|..|p4|] == p4[|p3|..] == e;
  }

  // ---------------------------------------------------------------------
  // The body as the script concatenates it
  // ---------------------------------------------------------------------

  /** The lines appended for the fixes of one file. */
  function FixLines(fixes: seq<Fix>): string {
    if |fixes| == 0 then ""
    else FixLines(fixes[..|fixes| - 1]) + FixText(fixes[|fixes| - 1]) + "\n"
  }

  /** The lines appended for every file: its heading, then its fixes. */
  function Sections(fixes: Fixes): string {
    if |fixes| == 0 then ""
    else
      var last := fixes[|fixes| - 1];
      Sections(fixes[..|fixes| - 1]) + FileText(last.0) + "\n" + FixLines(last.1)
  }

  function Body(fixes: Fixes): string {
    HeaderText + "\n" + Sections(fixes)
  }

  lemma FixLinesStep(fixes: seq<Fix>, j: nat)
    requires j < |fixes|
    ensures FixLines(fixes[..j + 1]) == FixLines(fixes[..j]) + (FixText(fixes[j]) + "\n")
  {
    assert fixes[..j + 1][..j] == fixes[..j];
    ConcatAssociative(FixLines(fixes[..j]), FixText(fixes[j]), "\n");
  }

  lemma SectionsStep(fixes: Fixes, i: nat)
    requires i < |fixes|
    ensures Sections(fixes[..i + 1]) == Sections(fixes[..i]) + (FileText(fixes[i].0) + "\n") + FixLines(fixes[i].1)
  {
    assert fixes[..i + 1][..i] == fixes[..i];
    ConcatAssociative(Sections(fixes[..i]), FileText(fixes[i].0), "\n");
  }

  /** The body-building loops of `comment_pr`. */
  method BuildBody(fixes: Fixes) returns (body: string)
    ensures body == Body(fixes)
  {
    body := HeaderText + "\n";
    var i := 0;
    while i < |fixes|
      invariant 0 <= i <= |fixes|
      invariant body == HeaderText + "\n" + Sections(fixes[..i])
    {
      var fname := fixes[i].0;
      var fix := fixes[i].1;
      body := body + (FileText(fname) + "\n");
      ghost var start := body;
      var j := 0;
      while j < |fix|
        invariant 0 <= j <= |fix|
        invariant body == start + FixLines(fix[..j])
      {
        FixLinesStep(fix, j);
        ConcatAssociative(start, FixLines(fix[..j]), FixText(fix[j]) + "\n");
        body := body + (FixText(fix[j]) + "\n");
        j := j + 1;
      }
      assert fix[..j] == fix;
      SectionsStep(fixes, i);
      ConcatAssociative(HeaderText + "\n", Sections(fixes[..i]) + (FileText(fname) + "\n"), FixLines(fix));
      ConcatAssociative(HeaderText + "\n", Sections(fixes[..i]), FileText(fname) + "\n");
      i := i + 1;
    }
    assert fixes[..i] == fixes;
  }

  /** What `comment_pr` posts: nothing for an empty fix map, else the body. */
  function CommentToPost(fixes: Fixes): (r: Option<string>)
    ensures r.None? <==> |fixes| == 0
    ensures r.Some? ==> |r.value| > |HeaderText| && r.value[..|HeaderText|] == HeaderText
    ensures r.Some? ==> r.value == JoinLines(BodyLines(fixes))
  {
    if |fixes| == 0 then None
    else
      BodyHeader(fixes);
      BodyAsLines(fixes);
      Some(Body(fixes))
  }

  lemma BodyHeader(fixes: Fixes)
    ensures |Body(fixes)| > |HeaderText| && Body(fixes)[..|HeaderText|] == HeaderText
  {
    var tail := "\n" + Sections(fixes);
    ConcatAssociative(HeaderText, "\n", Sections(fixes));
    assert Body(fixes) == HeaderText + tail;
  }

  // ---------------------------------------------------------------------
  // The body read line by line
  // ---------------------------------------------------------------------

  /** Terminate every line with a newline and concatenate. */
  function JoinLines(ls: seq<string>): string {
    if |ls| == 0 then "" else ls[0] + "\n" + JoinLines(ls[1..])
  }

  /** The position of the first newline, or the length when there is none. */
  function IndexOfNewline(s: string): (i: nat)
    ensures i <= |s|
    ensures i < |s| ==> s[i] == '\n'
    ensures forall k :: 0 <= k < i ==> s[k] != '\n'
  {
    if |s| == 0 || s[0] == '\n' then 0 else 1 + IndexOfNewline(s[1..])
  }

  /** Cut a text into its lines (Python's `str.splitlines` for `\n` only). */
  function SplitLines(s: string): seq<string>
    decreases |s|
  {
    if |s| == 0 then []
    else
      var i := IndexOfNewline(s);
      if i == |s| then [s] else [s[..i]] + SplitLines(s[i + 1..])
  }

  predicate NoNewline(s: string) {
    forall k :: 0 <= k < |s| ==> s[k] != '\n'
  }

  /** Splitting undoes joining, for lines that contain no newline. */
  lemma {:induction false} SplitJoin(ls: seq<string>)
    requires forall i :: 0 <= i < |ls| ==> NoNewline(ls[i])
    ensures SplitLines(JoinLines(ls)) == ls
  {
    if |ls| > 0 {
      var s := JoinLines(ls);
      var n := |ls[0]|;
      var tail := JoinLines(ls[1..]);
      assert s == ls[0] + ("\n" + tail);
      assert s[n] == '\n';
      var i := IndexOfNewline(s);
      assert forall k :: 0 <= k < n ==> s[k] == ls[0][k];
      assert i == n;
      assert s[..i] == ls[0];
      assert s[i + 1..] == tail;
      SplitJoin(ls[1..]);
    }
  }

  lemma {:induction false} JoinLinesConcat(a: seq<string>, b: seq<string>)
    ensures JoinLines(a + b) == JoinLines(a) + JoinLines(b)
  {
    if |a| == 0 {
      assert a + b == b;
    } else {
      assert (a + b)[0] == a[0];
      assert (a + b)[1..] == a[1..] + b;
      JoinLinesConcat(a[1..], b);
    }
  }

  /** The lines of the fixes of one file. */
  function FixTexts(fixes: seq<Fix>): (ls: seq<string>)
    ensures |ls| == |fixes|
    ensures forall j :: 0 <= j < |fixes| ==> ls[j] == FixText(fixes[j])
  {
    seq(|fixes|, j requires 0 <= j < |fixes| => FixText(fixes[j]))
  }

  /** The lines of every file: heading first, then one line per fix. */
  function SectionTexts(fixes: Fixes): seq<string> {
    if |fixes| == 0 then []
    else [FileText(fixes[0].0)] + FixTexts(fixes[0].1) + SectionTexts(fixes[1..])
  }

  /** The total number of fixes. */
  function FixCount(fixes: Fixes): nat {
    if |fixes| == 0 then 0 else |fixes[0].1| + FixCount(fixes[1..])
  }

  /** The comment's lines, newlines removed. */
  function BodyLines(fixes: Fixes): (ls: seq<string>)
    ensures |ls| == 1 + |fixes| + FixCount(fixes)
    ensures ls[0] == HeaderText
  {
    SectionTextsLength(fixes);
    [HeaderText] + SectionTexts(fixes)
  }

  lemma {:induction false} SectionTextsLength(fixes: Fixes)
    ensures |SectionTexts(fixes)| == |fixes| + FixCount(fixes)
  {
    if |fixes| > 0 {
      SectionTextsLength(fixes[1..]);
    }
  }

  lemma {:induction false} FixLinesAsLines(fixes: seq<Fix>)
    ensures FixLines(fixes) == JoinLines(FixTexts(fixes))
  {
    if |fixes| > 0 {
      var init := fixes[..|fixes| - 1];
      var last := fixes[|fixes| - 1];
      FixLinesAsLines(init);
      assert FixTexts(fixes) == FixTexts(init) + [FixText(last)];
      JoinLinesConcat(FixTexts(init), [FixText(last)]);
      var a, t := FixLines(init), FixText(last);
      assert JoinLines([t]) == t + "\n" by {
        assert JoinLines([t]) == t + "\n" + JoinLines([]);
      }
      assert FixLines(fixes) == a + t + "\n";
      ConcatAssociative(a, t, "\n");
    }
  }

  lemma {:induction false} SectionTextsSnoc(fixes: Fixes)
    requires |fixes| > 0
    ensures SectionTexts(fixes)
      == SectionTexts(fixes[..|fixes| - 1]) + ([FileText(fixes[|fixes| - 1].0)] + FixTexts(fixes[|fixes| - 1].1))
  {
    var last := fixes[|fixes| - 1];
    var lastLines := [FileText(last.0)] + FixTexts(last.1);
    if |fixes| == 1 {
      assert fixes[..0] == [];
      assert SectionTexts(fixes) == lastLines + SectionTexts([]);
    } else {
      var rest := fixes[1..];
      SectionTextsSnoc(rest);
      assert rest[..|rest| - 1] == fixes[..|fixes| - 1][1..];
      assert rest[|rest| - 1] == last;
      var head := [FileText(fixes[0].0)] + FixTexts(fixes[0].1);
      assert SectionTexts(fixes[..|fixes| - 1]) == head + SectionTexts(fixes[..|fixes| - 1][1..]);
      ConcatAssociative(head, SectionTexts(rest[..|rest| - 1]), lastLines);
    }
  }

  lemma {:induction false} SectionsAsLines(fixes: Fixes)
    ensures Sections(fixes) == JoinLines(SectionTexts(fixes))
  {
    if |fixes| > 0 {
      var init := fixes[..|fixes| - 1];
      var last := fixes[|fixes| - 1];
      SectionsAsLines(init);
      SectionTextsSnoc(fixes);
      FixLinesAsLines(last.1);
      JoinLinesConcat(SectionTexts(init), [FileText(last.0)] + FixTexts(last.1));
      JoinLinesConcat([FileText(last.0)], FixTexts(last.1));
      var a, f, l := Sections(init), FileText(last.0), FixLines(last.1);
      assert JoinLines([f]) == f + "\n" by {
        assert JoinLines([f]) == f + "\n" + JoinLines([]);
      }
      assert Sections(fixes) == a + f + "\n" + l;
      ConcatAssociative(a, f, "\n");
      ConcatAssociative(a, f + "\n", l);
    }
  }

  /** The body is its lines, each ended by a newline: the header, then per file
      its heading followed by one line per fix. */
  lemma BodyAsLines(fixes: Fixes)
    ensures Body(fixes) == JoinLines(BodyLines(fixes))
  {
    SectionsAsLines(fixes);
    assert BodyLines(fixes)[1..] == SectionTexts(fixes);
  }

  /** No path, word or suggestion contains a newline. */
  ghost predicate SingleLineFixes(fixes: Fixes) {
    forall i :: 0 <= i < |fixes| ==> (NoNewline(fixes[i].0) &&
      forall j :: 0 <= j < |fixes[i].1| ==> NoNewline(fixes[i].1[j].1) && NoNewline(fixes[i].1[j].2))
  }

  lemma NoNewlineConcat(a: string, b: string)
    requires NoNewline(a) && NoNewline(b)
    ensures NoNewline(a + b)
  {
    assert forall k :: |a| <= k < |a + b| ==> (a + b)[k] == b[k - |a|];
  }

  lemma FixTextSingleLine(fx: Fix)
    requires NoNewline(fx.1) && NoNewline(fx.2)
    ensures NoNewline(FixText(fx))
  {
    var n := Decimal.FromNat(fx.0);
    assert NoNewline(n) by {
      forall k | 0 <= k < |n| ensures n[k] != '\n' {
        assert Decimal.IsDigit(n[k]);
      }
    }
    NoNewlineConcat("  - line ", n);
    NoNewlineConcat("  - line " + n, ": `");
    NoNewlineConcat("  - line " + n + ": `", fx.1);
    NoNewlineConcat("  - line " + n + ": `" + fx.1, "` => `");
    NoNewlineConcat("  - line " + n + ": `" + fx.1 + "` => `", fx.2);
    NoNewlineConcat("  - line " + n + ": `" + fx.1 + "` => `" + fx.2, "`");
  }

  lemma {:induction false} SectionTextsSingleLine(fixes: Fixes)
    requires SingleLineFixes(fixes)
    ensures forall k :: 0 <= k < |SectionTexts(fixes)| ==> NoNewline(SectionTexts(fixes)[k])
  {
    if |fixes| > 0 {
      var f := fixes[0];
      assert SingleLineFixes(fixes[1..]) by {
        forall i | 0 <= i < |fixes[1..]| ensures fixes[1..][i] == fixes[i + 1] { }
      }
      SectionTextsSingleLine(fixes[1..]);
      NoNewlineConcat("- `", f.0);
      NoNewlineConcat("- `" + f.0, "`");
      forall j | 0 <= j < |f.1| ensures NoNewline(FixTexts(f.1)[j]) {
        FixTextSingleLine(f.1[j]);
      }
      var ls := SectionTexts(fixes);
      var head := [FileText(f.0)] + FixTexts(f.1);
      assert ls == head + SectionTexts(fixes[1..]);
      forall k | 0 <= k < |ls| ensures NoNewline(ls[k]) {
        if k >= |head| {
          assert ls[k] == SectionTexts(fixes[1..])[k - |head|];
        } else if k > 0 {
          assert ls[k] == FixTexts(f.1)[k - 1];
        }
      }
    }
  }

  /** Read back line by line, the body is the header, then for each file its
      heading and one line per fix: 1 + files + fixes lines in all. */
  lemma CommentLines(fixes: Fixes)
    requires SingleLineFixes(fixes)
    ensures SplitLines(Body(fixes)) == BodyLines(fixes)
    ensures |SplitLines(Body(fixes))| == 1 + |fixes| + FixCount(fixes)
  {
    BodyAsLines(fixes);
    SectionTextsSingleLine(fixes);
    var ls := BodyLines(fixes);
    forall k | 0 <= k < |ls| ensures NoNewline(ls[k]) {
      if k > 0 {
        assert ls[k] == SectionTexts(fixes)[k - 1];
      }
    }
    SplitJoin(ls);
  }

  /** Two fixes in one file render as one file bullet followed by two nested
      bullets, in the order the fixes were found. */
  lemma TwoFixesExample()
    ensures BodyLines([("a.txt", [(5, "Thsi", "This"), (12, "recieve", "receive")])])
      == [HeaderText, FileText("a.txt"), FixText((5, "Thsi", "This")), FixText((12, "recieve", "receive"))]
    ensures FixText((12, "recieve", "receive")) == "  - line " + "12" + ": `" + "recieve" + "` => `" + "receive" + "`"
  {
  }
}

=== FILE: decimal.dfy ===
/**
 Decimal rendering of a line number, as Python's `'{0:d}'.format(n)` writes a
 non-negative integer: the shortest string of ASCII digits, without sign or
 leading zeros.
 */
module Decimal {

  predicate IsDigit(c: char) {
    '0' <= c <= '9'
  }

  predicate AllDigits(s: string) {
    forall i :: 0 <= i < |s| ==> IsDigit(s[i])
  }

  /** The strings `'{0:d}'` can produce: non-empty digits, no leading zero unless the number is 0. */
  predicate Canonical(s: string) {
    |s| >= 1 && AllDigits(s) && (|s| > 1 ==> s[0] != '0')
  }

  function DigitChar(d: nat): (c: char)
    requires d < 10
    ensures IsDigit(c)
  {
    ('0' as int + d) as char
  }

  function DigitValue(c: char): (d: nat)
    requires IsDigit(c)
    ensures d < 10
    ensures DigitChar(d) == c
  {
    c as int - '0' as int
  }

  /** `'{0:d}'.format(n)` for a non-negative `n`. */
  function FromNat(n: nat): (s: string)
    ensures Canonical(s)
  {
    if n < 10 then [DigitChar(n)] else FromNat(n / 10) + [DigitChar(n % 10)]
  }

  /** The number a string of digits denotes (Python's `int(s)` on such a string). */
  function ToNat(s: string): nat
    requires AllDigits(s)
  {
    if |s| == 0 then 0 else ToNat(s[..|s| - 1]) * 10 + DigitValue(s[|s| - 1])
  }

  /** Reading back a rendered number gives the number. */
  lemma {:induction false} ToNatFromNat(n: nat)
    ensures ToNat(FromNat(n)) == n
  {
    var s := FromNat(n);
    if n < 10 {
      assert s[..0] == [];
    } else {
      var p := FromNat(n / 10);
      assert s[..|s| - 1] == p;
      assert s[|s| - 1] == DigitChar(n % 10);
      ToNatFromNat(n / 10);
    }
  }

  /** Rendering is injective: different line numbers never print alike. */
  lemma FromNatInjective(a: nat, b: nat)
    ensures FromNat(a) == FromNat(b) <==> a == b
  {
    if FromNat(a) == FromNat(b) {
      ToNatFromNat(a);
      ToNatFromNat(b);
    }
  }

  lemma {:induction false} ToNatLeadingNonZero(s: string)
    requires AllDigits(s) && |s| >= 1 && s[0] != '0'
    ensures ToNat(s) >= 1
  {
    if |s| > 1 {
      var p := s[..|s| - 1];
      assert p[0] == s[0];
      ToNatLeadingNonZero(p);
    }
  }

  /** Every canonical digit string is the rendering of the number it denotes. */
  lemma {:induction false} FromNatToNat(s: string)
    requires Canonical(s)
    ensures FromNat(ToNat(s)) == s
  {
    var c := s[|s| - 1];
    if |s| == 1 {
      assert s == [c];
    } else {
      var p := s[..|s| - 1];
      assert p[0] == s[0];
      ToNatLeadingNonZero(p);
      FromNatToNat(p);
      var n := ToNat(s);
      assert n == ToNat(p) * 10 + DigitValue(c);
      assert n / 10 == ToNat(p) && n % 10 == DigitValue(c);
      assert s == p + [c];
    }
  }
}

=== FILE: entrypoint.dfy ===
/**
 The decision logic of `main` in entrypoint.py and the run it drives.

 `main` checks, in order and returning at the first failure: that a token
 argument was given, that the triggering event is a pull request, that the
 event payload is not empty, that the pull-request action is one it handles,
 and that the diff could be fetched. Only then does it extract the added
 lines, match them against the dictionary and post the comment.

 The environment, the payload file, the HTTP fetch and the diff parser are
 not modelled; what `main` learns from them is an input here.
 */
module Entrypoint {
  import opened Wrappers
  import opened Assoc
  import opened Patch
  import opened Spelling
  import opened Comment

  const PullRequestEvent: string := "pull_request"

  /** The pull-request actions that trigger a check. */
  const HandledActions: seq<string> := ["opened", "edited", "synchronize"]

  /** What `main` consults, in the order it consults it: the length of
      `sys.argv` (program name included), the event name, whether the parsed
      payload is falsy, the payload's action, and the diff fetch's status. */
  datatype Inputs = Inputs(argc: nat, eventName: string, payloadEmpty: bool, action: string, diffStatus: int)

  /** Where `main` stops. */
  datatype Exit = MissingToken | NotPullRequest | EmptyPayload | ActionMismatch | DiffFetchFailed | Processed

  /** The value `main` returns on each path: 1 for a usage, environment or
      network failure, 0 for a deliberate no-op and for a processed diff. */
  function ReturnCode(e: Exit): (code: int)
    ensures code == 1 <==> e == MissingToken || e == EmptyPayload || e == DiffFetchFailed
    ensures code == 0 <==> e == NotPullRequest || e == ActionMismatch || e == Processed
  {
    match e
    case MissingToken => 1
    case NotPullRequest => 0
    case EmptyPayload => 1
    case ActionMismatch => 0
    case DiffFetchFailed => 1
    case Processed => 0
  }

  /** The guard chain of `main`. */
  function Decide(inp: Inputs): (e: Exit)
    ensures e == Processed <==>
      inp.argc >= 2 && inp.eventName == PullRequestEvent && !inp.payloadEmpty &&
      inp.action in HandledActions && inp.diffStatus == 200
  {
    if inp.argc < 2 then MissingToken
    else if inp.eventName != PullRequestEvent then NotPullRequest
    else if inp.payloadEmpty then EmptyPayload
    else if inp.action !in HandledActions then ActionMismatch
    else if inp.diffStatus != 200 then DiffFetchFailed
    else Processed
  }

  // ---------------------------------------------------------------------
  // Reference: a table of guards tried in order
  // ---------------------------------------------------------------------

  /** Each guard of `main` as (fails?, where it stops), in source order. */
  function Guards(inp: Inputs): seq<(bool, Exit)> {
    [ (inp.argc < 2, MissingToken),
      (inp.eventName != PullRequestEvent, NotPullRequest),
      (inp.payloadEmpty, EmptyPayload),
      (inp.action !in HandledActions, ActionMismatch),
      (inp.diffStatus != 200, DiffFetchFailed) ]
  }

  /** The exit of the first failing guard, if any. */
  function FirstFailing(guards: seq<(bool, Exit)>): Option<Exit> {
    if |guards| == 0 then None
    else if guards[0].0 then Some(guards[0].1)
    else FirstFailing(guards[1..])
  }

  /** `main` stops at the first failing guard, in source order, and processes
      the diff only when none fails. */
  lemma DecideIsFirstFailingGuard(inp: Inputs)
    ensures Decide(inp) == match FirstFailing(Guards(inp))
                           case Some(e) => e
                           case None => Processed
  {
    var g := Guards(inp);
    assert FirstFailing(g[4..]) == if g[4].0 then Some(g[4].1) else FirstFailing(g[5..]);
    assert FirstFailing(g[3..]) == if g[3].0 then Some(g[3].1) else FirstFailing(g[4..]);
    assert FirstFailing(g[2..]) == if g[2].0 then Some(g[2].1) else FirstFailing(g[3..]);
    assert FirstFailing(g[1..]) == if g[1].0 then Some(g[1].1) else FirstFailing(g[2..]);
    assert FirstFailing(g) == if g[0].0 then Some(g[0].1) else FirstFailing(g[1..]);
  }

  /** The inputs `main` has consulted by the time it stops at `e` agree. */
  ghost predicate AgreeUpTo(a: Inputs, b: Inputs, e: Exit) {
    && a.argc == b.argc
    && (e != MissingToken ==> a.eventName == b.eventName)
    && (e != MissingToken && e != NotPullRequest ==> a.payloadEmpty == b.payloadEmpty)
    && (e == ActionMismatch || e == DiffFetchFailed || e == Processed ==> a.action == b.action)
    && (e == DiffFetchFailed || e == Processed ==> a.diffStatus == b.diffStatus)
  }

  /** Each guard returns early: whatever `main` would have read after the guard
      that stopped it cannot change the outcome. */
  lemma EarlyReturn(a: Inputs, b: Inputs)
    requires AgreeUpTo(a, b, Decide(a))
    ensures Decide(b) == Decide(a)
  {
  }

  // ---------------------------------------------------------------------
  // One run of the action
  // ---------------------------------------------------------------------

  /** How a run ends: `main` returns a code, having posted the comment or not,
      or it raises. The only exception the model knows is the diff parser
      rejecting the fetched diff. */
  datatype Outcome = Returned(code: int, comment: Option<string>) | Raised

  /** `main`, with the fetched diff given already parsed (`None` when the
      parser rejects it). */
  function Main(inp: Inputs, diff: Option<PatchSet>, dict: Dictionary, lib: Library): (o: Outcome)
    ensures o.Raised? <==> Decide(inp) == Processed && diff.None?
    ensures o.Returned? ==> o.code == ReturnCode(Decide(inp))
    ensures o.Returned? && o.comment.Some? ==> Decide(inp) == Processed && diff.Some?
    ensures o.Returned? && o.comment.Some? ==>
      diff.Some? && o.comment.value == JoinLines(BodyLines(CheckSpelling(GetPatchedFiles(diff.value), dict, lib)))
  {
    var exit := Decide(inp);
    if exit != Processed then Returned(ReturnCode(exit), None)
    else
      match diff
      case None => Raised
      case Some(ps) =>
        var fixes := CheckSpelling(GetPatchedFiles(ps), dict, lib);
        Returned(0, CommentToPost(fixes))
  }

  /** Some added line of the patch set contains a token whose lowercase form is in the dictionary. */
  ghost predicate HasMisspelledAddition(ps: PatchSet, dict: Dictionary, lib: Library) {
    exists i, j, k, w :: 0 <= i < |ps| && 0 <= j < |ps[i].hunks| && 0 <= k < |ps[i].hunks[j].lines| &&
      ps[i].hunks[j].lines[k].IsAdded() && ps[i].hunks[j].lines[k].targetLineNo.Some? &&
      w in lib.findAll(ps[i].hunks[j].lines[k].value) && IsMisspelled(w, dict, lib)
  }

  /** A file in the fix map points back to an added line holding a misspelled token. */
  lemma FixesSound(ps: PatchSet, dict: Dictionary, lib: Library)
    requires |CheckSpelling(GetPatchedFiles(ps), dict, lib)| > 0
    ensures HasMisspelledAddition(ps, dict, lib)
  {
    var pfiles := GetPatchedFiles(ps);
    var fixes := CheckSpelling(pfiles, dict, lib);
    var path := fixes[0].0;
    assert Keys(fixes)[0] == path;
    CheckSpellingHasKey(pfiles, dict, lib, path);
    var lines := Get(pfiles, path);
    var fx := FileFixes(lines, dict, lib)[0];
    FileFixesSound(lines, dict, lib);
    var n :| 0 <= n < |lines| && fx.0 == lines[n].0 && fx.1 in lib.findAll(lines[n].1) && IsMisspelled(fx.1, dict, lib)
      && fx.2 == Correction(fx.1, dict, lib);
    AddedLineListed(ps, path, lines[n]);
    var i, j, k :| 0 <= i < |ps| && 0 <= j < |ps[i].hunks| && 0 <= k < |ps[i].hunks[j].lines| &&
      ps[i].path == path && ps[i].hunks[j].lines[k].IsAdded() &&
      ps[i].hunks[j].lines[k].targetLineNo == Some(lines[n].0) && ps[i].hunks[j].lines[k].value == lines[n].1;
    assert ps[i].hunks[j].lines[k].targetLineNo.Some?;
  }

  /** An added line holding a misspelled token puts its file in the fix map. */
  lemma FixesComplete(ps: PatchSet, dict: Dictionary, lib: Library)
    requires HasMisspelledAddition(ps, dict, lib)
    ensures |CheckSpelling(GetPatchedFiles(ps), dict, lib)| > 0
  {
    var pfiles := GetPatchedFiles(ps);
    var i, j, k, w :| 0 <= i < |ps| && 0 <= j < |ps[i].hunks| && 0 <= k < |ps[i].hunks[j].lines| &&
      ps[i].hunks[j].lines[k].IsAdded() && ps[i].hunks[j].lines[k].targetLineNo.Some? &&
      w in lib.findAll(ps[i].hunks[j].lines[k].value) && IsMisspelled(w, dict, lib);
    var line := ps[i].hunks[j].lines[k];
    var path := ps[i].path;
    var x := (line.targetLineNo.value, line.value);
    AddedLineListed(ps, path, x);
    var lines := Get(pfiles, path);
    var n :| 0 <= n < |lines| && lines[n] == x;
    FileFixesComplete(lines, dict, lib);
    assert (x.0, w, Correction(w, dict, lib)) in FileFixes(lines, dict, lib);
    GetKeyIffNonEmpty(pfiles, path);
    CheckSpellingHasKey(pfiles, dict, lib, path);
  }

  /** The fix map is non-empty exactly when some added line holds a misspelled token. */
  lemma FixesIffMisspelledAddition(ps: PatchSet, dict: Dictionary, lib: Library)
    ensures |CheckSpelling(GetPatchedFiles(ps), dict, lib)| > 0 <==> HasMisspelledAddition(ps, dict, lib)
  {
    if |CheckSpelling(GetPatchedFiles(ps), dict, lib)| > 0 {
      FixesSound(ps, dict, lib);
    }
    if HasMisspelledAddition(ps, dict, lib) {
      FixesComplete(ps, dict, lib);
    }
  }

  /** Once every guard passes and the diff parses, the run returns and posts a
      comment exactly when some added line holds a misspelled token; the
      comment is the rendered fix map. */
  lemma MainPostsIffMisspelling(inp: Inputs, ps: PatchSet, dict: Dictionary, lib: Library)
    requires Decide(inp) == Processed
    ensures Main(inp, Some(ps), dict, lib).Returned?
    ensures Main(inp, Some(ps), dict, lib).comment.Some? <==> HasMisspelledAddition(ps, dict, lib)
    ensures Main(inp, Some(ps), dict, lib).comment.Some? ==>
      Main(inp, Some(ps), dict, lib).comment.value == JoinLines(BodyLines(CheckSpelling(GetPatchedFiles(ps), dict, lib)))
  {
    FixesIffMisspelledAddition(ps, dict, lib);
  }

  /** A pull-request event whose action is `closed` is a no-op: code 0, no comment. */
  lemma ClosedActionIsNoOp(inp: Inputs, diff: Option<PatchSet>, dict: Dictionary, lib: Library)
    requires inp.argc >= 2 && inp.eventName == PullRequestEvent && !inp.payloadEmpty && inp.action == "closed"
    ensures Main(inp, diff, dict, lib) == Returned(0, None)
  {
    assert "closed" !in HandledActions;
  }

  /** A handled action whose diff fetch answers 404 fails with code 1 and posts nothing. */
  lemma DiffNotFoundFails(inp: Inputs, diff: Option<PatchSet>, dict: Dictionary, lib: Library)
    requires inp.argc >= 2 && inp.eventName == PullRequestEvent && !inp.payloadEmpty
    requires inp.action == "opened" && inp.diffStatus == 404
    ensures Main(inp, diff, dict, lib) == Returned(1, None)
  {
    assert "opened" in HandledActions;
  }

  // ---------------------------------------------------------------------
  // The process exit status
  // ---------------------------------------------------------------------

  /** The exit status of the process as the script is written: the value
      `main()` returns is dropped by the `__main__` block, so every run that
      returns exits 0; an uncaught exception exits 1, as Python does. */
  function ExitStatusAsWritten(o: Outcome): (status: int)
    ensures status == 0 <==> o.Returned?
    ensures status == 1 <==> o.Raised?
  {
    if o.Returned? then 0 else 1
  }

  /** A run without a token argument makes `main` return 1, yet the process exits 0. */
  lemma MissingTokenExitsZeroAsWritten(inp: Inputs, diff: Option<PatchSet>, dict: Dictionary, lib: Library)
    requires inp.argc < 2
    ensures Main(inp, diff, dict, lib) == Returned(1, None)
    ensures ExitStatusAsWritten(Main(inp, diff, dict, lib)) == 0
  {
  }

  /** As written, the process fails only when `main` raises: in the model,
      when every guard passes and the diff does not parse. Every return code of
      `main`, 1 included, ends in status 0. */
  lemma AsWrittenFailsOnlyOnParseFailure(inp: Inputs, diff: Option<PatchSet>, dict: Dictionary, lib: Library)
    ensures ExitStatusAsWritten(Main(inp, diff, dict, lib)) == 1 <==> Decide(inp) == Processed && diff.None?
    ensures ExitStatusAsWritten(Main(inp, diff, dict, lib)) == 0 <==> Decide(inp) != Processed || diff.Some?
  {
  }

  /** The exit status the script evidently means (`sys.exit(main())`): the
      code `main` returns, or 1 for an uncaught exception. */
  function ExitStatus(o: Outcome): (status: int)
    ensures o.Returned? ==> status == o.code
    ensures o.Raised? ==> status == 1
  {
    match o
    case Returned(code, _) => code
    case Raised => 1
  }

  /** With the return value passed on, the process fails exactly on a usage,
      environment, network or parse failure, and succeeds on a deliberate
      no-op or a processed diff. */
  lemma ExitStatusClassifies(inp: Inputs, diff: Option<PatchSet>, dict: Dictionary, lib: Library)
    ensures ExitStatus(Main(inp, diff, dict, lib)) == 1 <==>
      Decide(inp) in {MissingToken, EmptyPayload, DiffFetchFailed} || (Decide(inp) == Processed && diff.None?)
    ensures ExitStatus(Main(inp, diff, dict, lib)) == 0 <==>
      Decide(inp) in {NotPullRequest, ActionMismatch} || (Decide(inp) == Processed && diff.Some?)
  {
  }
}

=== FILE: patch.dfy ===
/**
 Added-line extraction (`get_patched_files` in entrypoint.py).

 The unified-diff text parser is a foreign library; what the script sees is
 its result, a patch set of files, each a list of hunks, each a list of
 lines. The script walks every file, every hunk and every target-side line,
 and for each line flagged as added appends `(target_line_no, value)` to the
 list kept under the file's path.
 */
module Patch {
  import opened Wrappers
  import opened Assoc

  /** How a hunk line is marked: `+`, `-` or a space. */
  datatype LineType = Added | Removed | Context

  /** A hunk line as the parser delivers it. A line has a target line number
      exactly when it exists in the new version of the file. */
  datatype Line = Line(lineType: LineType, sourceLineNo: Option<nat>, targetLineNo: Option<nat>, value: string) {
    predicate IsAdded() {
      lineType == Added
    }

    /** The numbering the parser assigns: added lines live only in the target,
        removed lines only in the source, context lines in both. */
    ghost predicate WellFormed() {
      match lineType
      case Added => sourceLineNo.None? && targetLineNo.Some?
      case Removed => sourceLineNo.Some? && targetLineNo.None?
      case Context => sourceLineNo.Some? && targetLineNo.Some?
    }
  }

  datatype Hunk = Hunk(lines: seq<Line>)

  /** One file of the patch set, under the path the parser reports for it. */
  datatype PatchedFile = PatchedFile(path: string, hunks: seq<Hunk>)

  type PatchSet = seq<PatchedFile>

  /** `(target_line_no, value)` of one added line. */
  type AddedLine = (nat, string)

  /** The dictionary `get_patched_files` returns: path to added lines. */
  type PatchedFiles = Assoc<string, AddedLine>

  // ---------------------------------------------------------------------
  // The loops of get_patched_files
  // ---------------------------------------------------------------------

  /** `hunk.target_lines()`: the lines that have a target line number, in
      order. (The parser selects them by type, see `TargetLinesByType`; on
      well-formed lines the two agree.) */
  function TargetLines(lines: seq<Line>): (r: seq<Line>)
    ensures forall i :: 0 <= i < |r| ==> r[i].targetLineNo.Some?
    ensures forall i :: 0 <= i < |lines| && lines[i].targetLineNo.Some? ==> lines[i] in r
    ensures IsSubsequence(r, lines)
  {
    if |lines| == 0 then []
    else
      var rest := TargetLines(lines[1..]);
      if lines[0].targetLineNo.Some? then
        assert ([lines[0]] + rest)[1..] == rest;
        assert forall i :: 1 <= i < |lines| ==> lines[i] == lines[1..][i - 1];
        [lines[0]] + rest
      else
        assert forall i :: 1 <= i < |lines| ==> lines[i] == lines[1..][i - 1];
        rest
  }

  /** Each line with a target number is kept as often as it occurs in the
      hunk, and no other line is kept. */
  lemma {:induction false} TargetLinesCount(lines: seq<Line>)
    ensures forall l :: (multiset(TargetLines(lines))[l] ==
      if l.targetLineNo.Some? then multiset(lines)[l] else 0)
  {
    if |lines| > 0 {
      TargetLinesCount(lines[1..]);
      assert lines == [lines[0]] + lines[1..];
    }
  }

  /** `target_lines()` as the parser defines it: the added and context lines, in order. */
  function TargetLinesByType(lines: seq<Line>): seq<Line> {
    if |lines| == 0 then []
    else (if lines[0].lineType != Removed then [lines[0]] else []) + TargetLinesByType(lines[1..])
  }

  /** On lines numbered as the parser numbers them, selecting by type and
      selecting by target number pick the same lines. */
  lemma {:induction false} TargetLinesAgree(lines: seq<Line>)
    requires forall i :: 0 <= i < |lines| ==> lines[i].WellFormed()
    ensures TargetLinesByType(lines) == TargetLines(lines)
  {
    if |lines| > 0 {
      assert lines[0].WellFormed();
      assert forall i :: 0 <= i < |lines[1..]| ==> lines[1..][i] == lines[i + 1];
      TargetLinesAgree(lines[1..]);
    }
  }

  /** The innermost loop: append every added target line under `path`. */
  function AddLines(m: PatchedFiles, path: string, lines: seq<Line>): PatchedFiles
    requires forall i :: 0 <= i < |lines| ==> lines[i].targetLineNo.Some?
    decreases |lines|
  {
    if |lines| == 0 then m
    else
      var line := lines[0];
      var m' := if line.IsAdded() then Append(m, path, (line.targetLineNo.value, line.value)) else m;
      AddLines(m', path, lines[1..])
  }

  /** The loop over the hunks of one file. */
  function AddHunks(m: PatchedFiles, path: string, hunks: seq<Hunk>): PatchedFiles
    decreases |hunks|
  {
    if |hunks| == 0 then m
    else AddHunks(AddLines(m, path, TargetLines(hunks[0].lines)), path, hunks[1..])
  }

  /** The loop over the files of the patch set. */
  function AddFiles(m: PatchedFiles, ps: PatchSet): PatchedFiles
    decreases |ps|
  {
    if |ps| == 0 then m
    else AddFiles(AddHunks(m, ps[0].path, ps[0].hunks), ps[1..])
  }

  /** `get_patched_files`, on an already parsed patch set. The result is a
      proper dictionary (each path once, never with an empty list) whose paths
      come in the order of their first file with an added line. */
  function GetPatchedFiles(ps: PatchSet): (r: PatchedFiles)
    ensures Valid(r)
    ensures Keys(r) == Distinct(PathsWithAdded(ps))
  {
    AddFilesGroups([], ps);
    GroupSpec(Flatten(Blocks(ps)));
    NewKeysFlatten([], Blocks(ps));
    KeysNonEmptyBlocks(ps);
    AddFiles([], ps)
  }

  // ---------------------------------------------------------------------
  // Reference: which lines a file contributes
  // ---------------------------------------------------------------------

  /** The lines of a hunk that are added and carry a target number, as `(number, text)`, in order. */
  function AddedInHunk(lines: seq<Line>): seq<AddedLine> {
    if |lines| == 0 then []
    else
      var l := lines[0];
      (if l.IsAdded() && l.targetLineNo.Some? then [(l.targetLineNo.value, l.value)] else [])
      + AddedInHunk(lines[1..])
  }

  /** The added lines of a file: hunk after hunk. */
  function AddedInFile(hunks: seq<Hunk>): seq<AddedLine> {
    if |hunks| == 0 then [] else AddedInHunk(hunks[0].lines) + AddedInFile(hunks[1..])
  }

  /** The added lines of every file reported under `path`, in patch order. */
  function AddedForPath(ps: PatchSet, path: string): seq<AddedLine> {
    if |ps| == 0 then []
    else (if ps[0].path == path then AddedInFile(ps[0].hunks) else []) + AddedForPath(ps[1..], path)
  }

  /** Each file's path with its added lines, one block per file. */
  function Blocks(ps: PatchSet): (bs: PatchedFiles)
    ensures |bs| == |ps|
    ensures forall i :: 0 <= i < |ps| ==> bs[i] == (ps[i].path, AddedInFile(ps[i].hunks))
  {
    if |ps| == 0 then [] else [(ps[0].path, AddedInFile(ps[0].hunks))] + Blocks(ps[1..])
  }

  /** The paths of the files that have at least one added line, in patch order (repeats kept). */
  function PathsWithAdded(ps: PatchSet): seq<string> {
    if |ps| == 0 then []
    else (if |AddedInFile(ps[0].hunks)| > 0 then [ps[0].path] else []) + PathsWithAdded(ps[1..])
  }

  // ---------------------------------------------------------------------
  // The loops compute the grouping of the reference
  // ---------------------------------------------------------------------

  lemma {:induction false} AddedOfTargetLines(lines: seq<Line>)
    ensures AddedInHunk(TargetLines(lines)) == AddedInHunk(lines)
  {
    if |lines| > 0 {
      AddedOfTargetLines(lines[1..]);
      var t := TargetLines(lines[1..]);
      if lines[0].targetLineNo.Some? {
        assert TargetLines(lines) == [lines[0]] + t;
        assert ([lines[0]] + t)[1..] == t;
      } else {
        assert TargetLines(lines) == t;
      }
    }
  }

  lemma {:induction false} AddLinesGroups(m: PatchedFiles, path: string, lines: seq<Line>)
    requires forall i :: 0 <= i < |lines| ==> lines[i].targetLineNo.Some?
    ensures AddLines(m, path, lines) == GroupInto(m, Tag(path, AddedInHunk(lines)))
    decreases |lines|
  {
    if |lines| > 0 {
      var l := lines[0];
      var rest := AddedInHunk(lines[1..]);
      AddLinesGroups(if l.IsAdded() then Append(m, path, (l.targetLineNo.value, l.value)) else m, path, lines[1..]);
      if l.IsAdded() {
        var es := Tag(path, AddedInHunk(lines));
        assert AddedInHunk(lines) == [(l.targetLineNo.value, l.value)] + rest;
        assert es[0] == (path, (l.targetLineNo.value, l.value));
        assert es[1..] == Tag(path, rest);
      } else {
        assert AddedInHunk(lines) == rest;
      }
    }
  }

  lemma {:induction false} AddHunksGroups(m: PatchedFiles, path: string, hunks: seq<Hunk>)
    ensures AddHunks(m, path, hunks) == GroupInto(m, Tag(path, AddedInFile(hunks)))
    decreases |hunks|
  {
    if |hunks| > 0 {
      var lines := TargetLines(hunks[0].lines);
      AddLinesGroups(m, path, lines);
      AddedOfTargetLines(hunks[0].lines);
      AddHunksGroups(AddLines(m, path, lines), path, hunks[1..]);
      TagConcat(path, AddedInHunk(hunks[0].lines), AddedInFile(hunks[1..]));
      GroupIntoConcat(m, Tag(path, AddedInHunk(hunks[0].lines)), Tag(path, AddedInFile(hunks[1..])));
    }
  }

  lemma {:induction false} AddFilesGroups(m: PatchedFiles, ps: PatchSet)
    ensures AddFiles(m, ps) == GroupInto(m, Flatten(Blocks(ps)))
    decreases |ps|
  {
    if |ps| > 0 {
      AddHunksGroups(m, ps[0].path, ps[0].hunks);
      AddFilesGroups(AddHunks(m, ps[0].path, ps[0].hunks), ps[1..]);
      assert Blocks(ps)[1..] == Blocks(ps[1..]);
      GroupIntoConcat(m, Tag(ps[0].path, AddedInFile(ps[0].hunks)), Flatten(Blocks(ps[1..])));
    }
  }

  /** `get_patched_files` groups, by path, the stream of added lines the files contribute. */
  lemma GetPatchedFilesIsGrouping(ps: PatchSet)
    ensures GetPatchedFiles(ps) == Group(Flatten(Blocks(ps)))
  {
    AddFilesGroups([], ps);
  }

  lemma {:induction false} GatherBlocks(ps: PatchSet, path: string)
    ensures Gather(Blocks(ps), path) == AddedForPath(ps, path)
  {
    if |ps| > 0 {
      assert Blocks(ps)[1..] == Blocks(ps[1..]);
      GatherBlocks(ps[1..], path);
    }
  }

  lemma {:induction false} KeysNonEmptyBlocks(ps: PatchSet)
    ensures Keys(NonEmptyOnly(Blocks(ps))) == PathsWithAdded(ps)
  {
    if |ps| > 0 {
      NonEmptyOnlyCons(Blocks(ps));
      assert Blocks(ps)[1..] == Blocks(ps[1..]);
      KeysConcat(NonEmptyOnly([Blocks(ps)[0]]), NonEmptyOnly(Blocks(ps[1..])));
      KeysNonEmptyBlocks(ps[1..]);
    }
  }

  // ---------------------------------------------------------------------
  // Properties of get_patched_files
  // ---------------------------------------------------------------------

  /** Under each path the result holds exactly the added lines of the files with
      that path, in patch, hunk and line order. */
  lemma GetPatchedFilesLines(ps: PatchSet, path: string)
    ensures Get(GetPatchedFiles(ps), path) == AddedForPath(ps, path)
  {
    GetPatchedFilesIsGrouping(ps);
    GroupSpec(Flatten(Blocks(ps)));
    SelectFlatten(Blocks(ps), path);
    GatherBlocks(ps, path);
  }

  /** A path is a key exactly when some file with that path has an added line. */
  lemma GetPatchedFilesHasKey(ps: PatchSet, path: string)
    ensures path in Keys(GetPatchedFiles(ps)) <==> |AddedForPath(ps, path)| > 0
  {
    GetPatchedFilesLines(ps, path);
    GetKeyIffNonEmpty(GetPatchedFiles(ps), path);
  }

  /** When no two files share a path, the result is each file with added lines,
      in patch order, holding its own added lines. */
  lemma GetPatchedFilesDistinctPaths(ps: PatchSet)
    requires forall i, j :: 0 <= i < j < |ps| ==> ps[i].path != ps[j].path
    ensures GetPatchedFiles(ps) == NonEmptyOnly(Blocks(ps))
  {
    GetPatchedFilesIsGrouping(ps);
    GroupBlocks(Blocks(ps));
  }

  // ---------------------------------------------------------------------
  // Which lines are extracted
  // ---------------------------------------------------------------------

  /** The extracted lines of a hunk are exactly its added lines, as
      `(target number, text)`; context and removed lines contribute nothing. */
  lemma {:induction false} AddedInHunkExact(lines: seq<Line>)
    ensures forall i :: 0 <= i < |lines| && lines[i].IsAdded() && lines[i].targetLineNo.Some? ==>
      (lines[i].targetLineNo.value, lines[i].value) in AddedInHunk(lines)
    ensures forall x :: x in AddedInHunk(lines) ==>
      exists i :: 0 <= i < |lines| && lines[i].IsAdded() && lines[i].targetLineNo == Some(x.0) && lines[i].value == x.1
  {
    if |lines| > 0 {
      AddedInHunkExact(lines[1..]);
      var l := lines[0];
      var rest := AddedInHunk(lines[1..]);
      var head := if l.IsAdded() && l.targetLineNo.Some? then [(l.targetLineNo.value, l.value)] else [];
      assert AddedInHunk(lines) == head + rest;
      forall i | 0 < i < |lines| && lines[i].IsAdded() && lines[i].targetLineNo.Some?
        ensures (lines[i].targetLineNo.value, lines[i].value) in AddedInHunk(lines)
      {
        assert lines[i] == lines[1..][i - 1];
      }
      forall x | x in AddedInHunk(lines)
        ensures exists i :: 0 <= i < |lines| && lines[i].IsAdded() && lines[i].targetLineNo == Some(x.0) && lines[i].value == x.1
      {
        if x in rest {
          var i :| 0 <= i < |lines[1..]| && lines[1..][i].IsAdded() && lines[1..][i].targetLineNo == Some(x.0) && lines[1..][i].value == x.1;
          assert lines[i + 1] == lines[1..][i];
        } else {
          assert x in head;
        }
      }
    }
  }

  lemma {:induction false} AddedInFileMember(hunks: seq<Hunk>, x: AddedLine)
    ensures x in AddedInFile(hunks) <==> exists j :: 0 <= j < |hunks| && x in AddedInHunk(hunks[j].lines)
  {
    if |hunks| > 0 {
      AddedInFileMember(hunks[1..], x);
      assert forall j :: 1 <= j < |hunks| ==> hunks[j] == hunks[1..][j - 1];
      if exists j :: 0 <= j < |hunks| && x in AddedInHunk(hunks[j].lines) {
        var j :| 0 <= j < |hunks| && x in AddedInHunk(hunks[j].lines);
        if j > 0 {
          assert hunks[1..][j - 1] == hunks[j];
        }
      }
    }
  }

  lemma {:induction false} AddedForPathMember(ps: PatchSet, path: string, x: AddedLine)
    ensures x in AddedForPath(ps, path) <==> exists i :: 0 <= i < |ps| && ps[i].path == path && x in AddedInFile(ps[i].hunks)
  {
    if |ps| > 0 {
      AddedForPathMember(ps[1..], path, x);
      assert forall i :: 1 <= i < |ps| ==> ps[i] == ps[1..][i - 1];
      if exists i :: 0 <= i < |ps| && ps[i].path == path && x in AddedInFile(ps[i].hunks) {
        var i :| 0 <= i < |ps| && ps[i].path == path && x in AddedInFile(ps[i].hunks);
        if i > 0 {
          assert ps[1..][i - 1] == ps[i];
        }
      }
    }
  }

  /** An added line of the patch set is listed under its file's path, and every
      listed line is an added line of a file with that path. */
  lemma AddedLineListed(ps: PatchSet, path: string, x: AddedLine)
    ensures x in Get(GetPatchedFiles(ps), path) <==>
      exists i, j, k :: 0 <= i < |ps| && 0 <= j < |ps[i].hunks| && 0 <= k < |ps[i].hunks[j].lines| &&
        ps[i].path == path && ps[i].hunks[j].lines[k].IsAdded() &&
        ps[i].hunks[j].lines[k].targetLineNo == Some(x.0) && ps[i].hunks[j].lines[k].value == x.1
  {
    GetPatchedFilesLines(ps, path);
    AddedForPathMember(ps, path, x);
    if x in AddedForPath(ps, path) {
      var i :| 0 <= i < |ps| && ps[i].path == path && x in AddedInFile(ps[i].hunks);
      AddedInFileMember(ps[i].hunks, x);
      var j :| 0 <= j < |ps[i].hunks| && x in AddedInHunk(ps[i].hunks[j].lines);
      AddedInHunkExact(ps[i].hunks[j].lines);
    }
    if exists i, j, k :: 0 <= i < |ps| && 0 <= j < |ps[i].hunks| && 0 <= k < |ps[i].hunks[j].lines| &&
        ps[i].path == path && ps[i].hunks[j].lines[k].IsAdded() &&
        ps[i].hunks[j].lines[k].targetLineNo == Some(x.0) && ps[i].hunks[j].lines[k].value == x.1 {
      var i, j, k :| 0 <= i < |ps| && 0 <= j < |ps[i].hunks| && 0 <= k < |ps[i].hunks[j].lines| &&
        ps[i].path == path && ps[i].hunks[j].lines[k].IsAdded() &&
        ps[i].hunks[j].lines[k].targetLineNo == Some(x.0) && ps[i].hunks[j].lines[k].value == x.1;
      AddedInHunkMember(ps[i].hunks[j].lines, k);
      AddedInFileMember(ps[i].hunks, x);
    }
  }

  lemma {:induction false} AddedInHunkMember(lines: seq<Line>, k: nat)
    requires k < |lines| && lines[k].IsAdded() && lines[k].targetLineNo.Some?
    ensures (lines[k].targetLineNo.value, lines[k].value) in AddedInHunk(lines)
  {
    if k > 0 {
      AddedInHunkMember(lines[1..], k - 1);
    }
  }

  /** Some line of some hunk is an added line with a target number. */
  ghost predicate HasAddedLine(ps: PatchSet) {
    exists i, j, k :: 0 <= i < |ps| && 0 <= j < |ps[i].hunks| && 0 <= k < |ps[i].hunks[j].lines| &&
      ps[i].hunks[j].lines[k].IsAdded() && ps[i].hunks[j].lines[k].targetLineNo.Some?
  }

  lemma {:induction false} AddedInHunkEmpty(lines: seq<Line>)
    ensures |AddedInHunk(lines)| == 0 <==> forall k :: 0 <= k < |lines| ==> !(lines[k].IsAdded() && lines[k].targetLineNo.Some?)
  {
    if |lines| > 0 {
      AddedInHunkEmpty(lines[1..]);
      assert forall k :: 1 <= k < |lines| ==> lines[k] == lines[1..][k - 1];
    }
  }

  lemma {:induction false} AddedInFileEmpty(hunks: seq<Hunk>)
    ensures |AddedInFile(hunks)| == 0 <==>
      forall j, k :: 0 <= j < |hunks| && 0 <= k < |hunks[j].lines| ==>
        !(hunks[j].lines[k].IsAdded() && hunks[j].lines[k].targetLineNo.Some?)
  {
    if |hunks| > 0 {
      AddedInHunkEmpty(hunks[0].lines);
      AddedInFileEmpty(hunks[1..]);
      assert forall j :: 1 <= j < |hunks| ==> hunks[j] == hunks[1..][j - 1];
    }
  }

  lemma {:induction false} PathsWithAddedEmpty(ps: PatchSet)
    ensures |PathsWithAdded(ps)| == 0 <==> !HasAddedLine(ps)
  {
    if |ps| > 0 {
      PathsWithAddedEmpty(ps[1..]);
      AddedInFileEmpty(ps[0].hunks);
      if HasAddedLine(ps) {
        var i, j, k :| 0 <= i < |ps| && 0 <= j < |ps[i].hunks| && 0 <= k < |ps[i].hunks[j].lines| &&
          ps[i].hunks[j].lines[k].IsAdded() && ps[i].hunks[j].lines[k].targetLineNo.Some?;
        if i > 0 {
          assert ps[1..][i - 1] == ps[i];
          assert HasAddedLine(ps[1..]);
        }
      } else {
        forall i, j, k | 0 <= i < |ps[1..]| && 0 <= j < |ps[1..][i].hunks| && 0 <= k < |ps[1..][i].hunks[j].lines|
          ensures !(ps[1..][i].hunks[j].lines[k].IsAdded() && ps[1..][i].hunks[j].lines[k].targetLineNo.Some?)
        {
          assert ps[1..][i] == ps[i + 1];
        }
      }
    }
  }

  /** The result is empty exactly when the patch set adds no line. */
  lemma GetPatchedFilesEmpty(ps: PatchSet)
    ensures |GetPatchedFiles(ps)| == 0 <==> !HasAddedLine(ps)
  {
    PathsWithAddedEmpty(ps);
    var paths := PathsWithAdded(ps);
    if |paths| > 0 {
      assert paths[0] in Distinct(paths);
    }
  }
}

=== FILE: spelling.dfy ===
/**
 Spelling matching (`check_spelling` in entrypoint.py).

 For every file of the added-line dictionary, every added line and every
 token the word regular expression finds in it, the script lowercases the
 token and, when the lowercased form is a key of the misspelling dictionary,
 appends `(line_no, word, fix_case(word, entry.data))` under the file.

 The tokeniser (`word_regex.findall`), `str.lower` and codespell's
 `fix_case` are foreign code and are taken as parameters, bundled in
 `Library`; the misspelling dictionary is a parameter too.
 */
module Spelling {
  import opened Assoc
  import opened Patch

  /** A dictionary entry: the correction text `data`, whether codespell would
      apply it automatically, and the reason it gives. Only `data` is read. */
  datatype Misspelling = Misspelling(data: string, fix: bool, reason: string)

  /** Lower-case misspelling to its entry. */
  type Dictionary = map<string, Misspelling>

  /** The foreign operations the matcher calls. */
  datatype Library = Library(
    findAll: string -> seq<string>,        // word_regex.findall
    lower: string -> string,               // str.lower
    fixCase: (string, string) -> string    // codespell's fix_case(word, fixword)
  )

  /** `(line_no, word, fixword)`. */
  type Fix = (nat, string, string)

  /** The dictionary `check_spelling` returns: path to fixes. */
  type Fixes = Assoc<string, Fix>

  predicate IsMisspelled(word: string, dict: Dictionary, lib: Library) {
    lib.lower(word) in dict
  }

  /** The suggestion for a misspelled token, with its case restored. */
  function Correction(word: string, dict: Dictionary, lib: Library): string
    requires IsMisspelled(word, dict, lib)
  {
    lib.fixCase(word, dict[lib.lower(word)].data)
  }

  // ---------------------------------------------------------------------
  // The loops of check_spelling
  // ---------------------------------------------------------------------

  /** The innermost loop, over the tokens of one line. */
  function CheckWords(m: Fixes, fname: string, lineNo: nat, words: seq<string>, dict: Dictionary, lib: Library): Fixes
    decreases |words|
  {
    if |words| == 0 then m
    else
      var word := words[0];
      var lword := lib.lower(word);
      var m' := if lword in dict then Append(m, fname, (lineNo, word, lib.fixCase(word, dict[lword].data))) else m;
      CheckWords(m', fname, lineNo, words[1..], dict, lib)
  }

  /** The loop over the added lines of one file. */
  function CheckLines(m: Fixes, fname: string, lines: seq<AddedLine>, dict: Dictionary, lib: Library): Fixes
    decreases |lines|
  {
    if |lines| == 0 then m
    else CheckLines(CheckWords(m, fname, lines[0].0, lib.findAll(lines[0].1), dict, lib), fname, lines[1..], dict, lib)
  }

  /** The loop over the file names, each looked up in `pfiles`. */
  function CheckFiles(m: Fixes, names: seq<string>, pfiles: PatchedFiles, dict: Dictionary, lib: Library): Fixes
    decreases |names|
  {
    if |names| == 0 then m
    else CheckFiles(CheckLines(m, names[0], Get(pfiles, names[0]), dict, lib), names[1..], pfiles, dict, lib)
  }

  /** `check_spelling(pfiles, misspellings, word_regex)`. */
  function CheckSpelling(pfiles: PatchedFiles, dict: Dictionary, lib: Library): (r: Fixes)
    ensures Valid(r)
  {
    CheckFilesGroups([], Keys(pfiles), pfiles, dict, lib);
    GroupSpec(Flatten(NameBlocks(Keys(pfiles), pfiles, dict, lib)));
    CheckFiles([], Keys(pfiles), pfiles, dict, lib)
  }

  // ---------------------------------------------------------------------
  // Reference: the fixes each line and file should produce
  // ---------------------------------------------------------------------

  /** The tokens whose lowercase form is in the dictionary, in order, repeats kept. */
  function Misspelled(words: seq<string>, dict: Dictionary, lib: Library): (r: seq<string>)
    ensures forall i :: 0 <= i < |r| ==> IsMisspelled(r[i], dict, lib)
  {
    if |words| == 0 then []
    else (if IsMisspelled(words[0], dict, lib) then [words[0]] else []) + Misspelled(words[1..], dict, lib)
  }

  /** Every misspelled token is kept as often as it occurs, and nothing else is kept. */
  lemma {:induction false} MisspelledCount(words: seq<string>, dict: Dictionary, lib: Library)
    ensures forall w :: (multiset(Misspelled(words, dict, lib))[w] ==
      if IsMisspelled(w, dict, lib) then multiset(words)[w] else 0)
  {
    if |words| > 0 {
      MisspelledCount(words[1..], dict, lib);
      assert words == [words[0]] + words[1..];
    }
  }

  /** One fix per misspelled token, in token order, each carrying `lineNo`. */
  function WordFixes(lineNo: nat, words: seq<string>, dict: Dictionary, lib: Library): (r: seq<Fix>)
    ensures |r| == |Misspelled(words, dict, lib)|
    ensures forall i :: 0 <= i < |r| ==>
      r[i] == (lineNo, Misspelled(words, dict, lib)[i], Correction(Misspelled(words, dict, lib)[i], dict, lib))
  {
    if |words| == 0 then []
    else
      var w := words[0];
      (if IsMisspelled(w, dict, lib) then [(lineNo, w, Correction(w, dict, lib))] else [])
      + WordFixes(lineNo, words[1..], dict, lib)
  }

  /** The fixes of one added line. */
  function LineFixes(lineNo: nat, text: string, dict: Dictionary, lib: Library): seq<Fix> {
    WordFixes(lineNo, lib.findAll(text), dict, lib)
  }

  /** The fixes of a file's added lines: line after line. */
  function FileFixes(lines: seq<AddedLine>, dict: Dictionary, lib: Library): seq<Fix> {
    if |lines| == 0 then [] else LineFixes(lines[0].0, lines[0].1, dict, lib) + FileFixes(lines[1..], dict, lib)
  }

  /** Each file of `pfiles` with the fixes of its lines. */
  function FixBlocks(pfiles: PatchedFiles, dict: Dictionary, lib: Library): (bs: Fixes)
    ensures |bs| == |pfiles|
    ensures forall i :: 0 <= i < |pfiles| ==> bs[i] == (pfiles[i].0, FileFixes(pfiles[i].1, dict, lib))
  {
    if |pfiles| == 0 then []
    else [(pfiles[0].0, FileFixes(pfiles[0].1, dict, lib))] + FixBlocks(pfiles[1..], dict, lib)
  }

  /** The same, for a list of names looked up in `pfiles`. */
  function NameBlocks(names: seq<string>, pfiles: PatchedFiles, dict: Dictionary, lib: Library): (bs: Fixes)
    ensures |bs| == |names|
    ensures forall i :: 0 <= i < |names| ==> bs[i] == (names[i], FileFixes(Get(pfiles, names[i]), dict, lib))
  {
    if |names| == 0 then []
    else [(names[0], FileFixes(Get(pfiles, names[0]), dict, lib))] + NameBlocks(names[1..], pfiles, dict, lib)
  }

  // ---------------------------------------------------------------------
  // The loops compute the reference
  // ---------------------------------------------------------------------

  lemma {:induction false} CheckWordsGroups(m: Fixes, fname: string, lineNo: nat, words: seq<string>, dict: Dictionary, lib: Library)
    ensures CheckWords(m, fname, lineNo, words, dict, lib) == GroupInto(m, Tag(fname, WordFixes(lineNo, words, dict, lib)))
    decreases |words|
  {
    if |words| > 0 {
      var w := words[0];
      var rest := WordFixes(lineNo, words[1..], dict, lib);
      var m' := if IsMisspelled(w, dict, lib) then Append(m, fname, (lineNo, w, Correction(w, dict, lib))) else m;
      assert CheckWords(m, fname, lineNo, words, dict, lib) == CheckWords(m', fname, lineNo, words[1..], dict, lib);
      CheckWordsGroups(m', fname, lineNo, words[1..], dict, lib);
      if IsMisspelled(w, dict, lib) {
        var fx := (lineNo, w, Correction(w, dict, lib));
        assert WordFixes(lineNo, words, dict, lib) == [fx] + rest;
        var es := Tag(fname, [fx] + rest);
        assert es[0] == (fname, fx);
        assert es[1..] == Tag(fname, rest);
        assert GroupInto(m, es) == GroupInto(m', es[1..]);
      } else {
        assert WordFixes(lineNo, words, dict, lib) == rest;
      }
    }
  }

  lemma {:induction false} CheckLinesGroups(m: Fixes, fname: string, lines: seq<AddedLine>, dict: Dictionary, lib: Library)
    ensures CheckLines(m, fname, lines, dict, lib) == GroupInto(m, Tag(fname, FileFixes(lines, dict, lib)))
    decreases |lines|
  {
    if |lines| > 0 {
      var head := LineFixes(lines[0].0, lines[0].1, dict, lib);
      CheckWordsGroups(m, fname, lines[0].0, lib.findAll(lines[0].1), dict, lib);
      var m' := CheckWords(m, fname, lines[0].0, lib.findAll(lines[0].1), dict, lib);
      assert m' == GroupInto(m, Tag(fname, head));
      CheckLinesGroups(m', fname, lines[1..], dict, lib);
      TagConcat(fname, head, FileFixes(lines[1..], dict, lib));
      GroupIntoConcat(m, Tag(fname, head), Tag(fname, FileFixes(lines[1..], dict, lib)));
    }
  }

  lemma {:induction false} CheckFilesGroups(m: Fixes, names: seq<string>, pfiles: PatchedFiles, dict: Dictionary, lib: Library)
    ensures CheckFiles(m, names, pfiles, dict, lib) == GroupInto(m, Flatten(NameBlocks(names, pfiles, dict, lib)))
    decreases |names|
  {
    if |names| > 0 {
      var lines := Get(pfiles, names[0]);
      CheckLinesGroups(m, names[0], lines, dict, lib);
      CheckFilesGroups(CheckLines(m, names[0], lines, dict, lib), names[1..], pfiles, dict, lib);
      assert NameBlocks(names, pfiles, dict, lib)[1..] == NameBlocks(names[1..], pfiles, dict, lib);
      GroupIntoConcat(m, Tag(names[0], FileFixes(lines, dict, lib)), Flatten(NameBlocks(names[1..], pfiles, dict, lib)));
    }
  }

  /** `check_spelling` yields, in the order of `pfiles`, every file that has at
      least one fix, with exactly the fixes of its lines. */
  lemma CheckSpellingIsReference(pfiles: PatchedFiles, dict: Dictionary, lib: Library)
    requires UniqueKeys(pfiles)
    ensures CheckSpelling(pfiles, dict, lib) == NonEmptyOnly(FixBlocks(pfiles, dict, lib))
  {
    CheckFilesGroups([], Keys(pfiles), pfiles, dict, lib);
    var bs := FixBlocks(pfiles, dict, lib);
    assert NameBlocks(Keys(pfiles), pfiles, dict, lib) == bs;
    GroupBlocks(bs);
  }

  // ---------------------------------------------------------------------
  // Properties of check_spelling
  // ---------------------------------------------------------------------

  /** Looking a file up among the reference blocks gives the fixes of its lines. */
  lemma {:induction false} GetFixBlocks(pfiles: PatchedFiles, dict: Dictionary, lib: Library, fname: string)
    ensures Get(FixBlocks(pfiles, dict, lib), fname) == FileFixes(Get(pfiles, fname), dict, lib)
  {
    if |pfiles| > 0 {
      var bs := FixBlocks(pfiles, dict, lib);
      assert bs[1..] == FixBlocks(pfiles[1..], dict, lib);
      GetFixBlocks(pfiles[1..], dict, lib, fname);
    }
  }

  /** Under each file the result holds exactly the fixes of that file's lines:
      line order first, token order within a line. */
  lemma CheckSpellingFile(pfiles: PatchedFiles, dict: Dictionary, lib: Library, fname: string)
    requires UniqueKeys(pfiles)
    ensures Get(CheckSpelling(pfiles, dict, lib), fname) == FileFixes(Get(pfiles, fname), dict, lib)
  {
    CheckSpellingIsReference(pfiles, dict, lib);
    var bs := FixBlocks(pfiles, dict, lib);
    assert UniqueKeys(bs);
    GetNonEmptyOnly(bs, fname);
    GetFixBlocks(pfiles, dict, lib, fname);
  }

  /** A file is a key of the result exactly when it is a key of the input and
      at least one of its tokens is a misspelling. */
  lemma CheckSpellingHasKey(pfiles: PatchedFiles, dict: Dictionary, lib: Library, fname: string)
    requires UniqueKeys(pfiles)
    ensures fname in Keys(CheckSpelling(pfiles, dict, lib)) <==>
      fname in Keys(pfiles) && |FileFixes(Get(pfiles, fname), dict, lib)| > 0
  {
    CheckSpellingIsReference(pfiles, dict, lib);
    var bs := FixBlocks(pfiles, dict, lib);
    GetNonEmptyOnly(bs, fname);
    assert Keys(bs) == Keys(pfiles);
  }

  /** The result's files keep their relative order from the input. */
  lemma CheckSpellingKeyOrder(pfiles: PatchedFiles, dict: Dictionary, lib: Library)
    requires UniqueKeys(pfiles)
    ensures IsSubsequence(Keys(CheckSpelling(pfiles, dict, lib)), Keys(pfiles))
    ensures Valid(CheckSpelling(pfiles, dict, lib))
  {
    CheckSpellingIsReference(pfiles, dict, lib);
    var bs := FixBlocks(pfiles, dict, lib);
    NonEmptyOnlyKeysSubsequence(bs);
    assert Keys(bs) == Keys(pfiles);
    GroupBlocks(bs);
    GroupSpec(Flatten(bs));
  }

  /** The fixes of a line are exactly its misspelled tokens, with the line's number and their corrections. */
  lemma LineFixesExact(lineNo: nat, text: string, dict: Dictionary, lib: Library)
    ensures forall fx :: fx in LineFixes(lineNo, text, dict, lib) ==>
      fx.0 == lineNo && fx.1 in lib.findAll(text) && IsMisspelled(fx.1, dict, lib) && fx.2 == Correction(fx.1, dict, lib)
    ensures forall w :: w in lib.findAll(text) && IsMisspelled(w, dict, lib) ==>
      (lineNo, w, Correction(w, dict, lib)) in LineFixes(lineNo, text, dict, lib)
  {
    var ws := Misspelled(lib.findAll(text), dict, lib);
    var fixes := LineFixes(lineNo, text, dict, lib);
    MisspelledCount(lib.findAll(text), dict, lib);
    forall fx | fx in fixes
      ensures fx.0 == lineNo && fx.1 in lib.findAll(text) && IsMisspelled(fx.1, dict, lib) && fx.2 == Correction(fx.1, dict, lib)
    {
      var i :| 0 <= i < |fixes| && fixes[i] == fx;
      assert multiset(ws)[ws[i]] > 0;
    }
    forall w | w in lib.findAll(text) && IsMisspelled(w, dict, lib)
      ensures (lineNo, w, Correction(w, dict, lib)) in fixes
    {
      assert multiset(ws)[w] > 0;
      var i :| 0 <= i < |ws| && ws[i] == w;
      assert fixes[i] == (lineNo, w, Correction(w, dict, lib));
    }
  }

  /** Every fix of a file comes from one of its lines: it carries that line's
      number, its word is a token of that line whose lowercase form is in the
      dictionary, and its suggestion is the case-restored entry. */
  lemma {:induction false} FileFixesSound(lines: seq<AddedLine>, dict: Dictionary, lib: Library)
    ensures forall fx :: fx in FileFixes(lines, dict, lib) ==>
      exists j :: 0 <= j < |lines| && fx.0 == lines[j].0 && fx.1 in lib.findAll(lines[j].1) &&
        IsMisspelled(fx.1, dict, lib) && fx.2 == Correction(fx.1, dict, lib)
  {
    if |lines| > 0 {
      FileFixesSound(lines[1..], dict, lib);
      LineFixesExact(lines[0].0, lines[0].1, dict, lib);
      var all := FileFixes(lines, dict, lib);
      assert all == LineFixes(lines[0].0, lines[0].1, dict, lib) + FileFixes(lines[1..], dict, lib);
      forall fx | fx in all
        ensures exists j :: (0 <= j < |lines| && fx.0 == lines[j].0 && fx.1 in lib.findAll(lines[j].1) &&
          IsMisspelled(fx.1, dict, lib) && fx.2 == Correction(fx.1, dict, lib))
      {
        if fx !in LineFixes(lines[0].0, lines[0].1, dict, lib) {
          var j :| 0 <= j < |lines[1..]| && fx.0 == lines[1..][j].0 && fx.1 in lib.findAll(lines[1..][j].1) &&
            IsMisspelled(fx.1, dict, lib) && fx.2 == Correction(fx.1, dict, lib);
          assert lines[j + 1] == lines[1..][j];
        }
      }
    }
  }

  /** Every misspelled token of every line of a file yields its fix. */
  lemma {:induction false} FileFixesComplete(lines: seq<AddedLine>, dict: Dictionary, lib: Library)
    ensures forall j, w :: 0 <= j < |lines| && w in lib.findAll(lines[j].1) && IsMisspelled(w, dict, lib) ==>
      (lines[j].0, w, Correction(w, dict, lib)) in FileFixes(lines, dict, lib)
  {
    if |lines| > 0 {
      FileFixesComplete(lines[1..], dict, lib);
      LineFixesExact(lines[0].0, lines[0].1, dict, lib);
      var all := FileFixes(lines, dict, lib);
      assert all == LineFixes(lines[0].0, lines[0].1, dict, lib) + FileFixes(lines[1..], dict, lib);
      forall j, w | 0 <= j < |lines| && w in lib.findAll(lines[j].1) && IsMisspelled(w, dict, lib)
        ensures (lines[j].0, w, Correction(w, dict, lib)) in all
      {
        if j > 0 {
          assert lines[j] == lines[1..][j - 1];
        }
      }
    }
  }

  /** A line `Thsi is a test` added at line 5 of `a.txt`, with `thsi -> this`
      in the dictionary, yields the single fix `(5, Thsi, This)`. */
  lemma ThsiExample(dict: Dictionary, lib: Library)
    requires lib.findAll("Thsi is a test") == ["Thsi", "is", "a", "test"]
    requires lib.lower("Thsi") == "thsi" && "thsi" in dict && dict["thsi"].data == "this"
    requires lib.fixCase("Thsi", "this") == "This"
    requires !IsMisspelled("is", dict, lib) && !IsMisspelled("a", dict, lib) && !IsMisspelled("test", dict, lib)
    ensures CheckSpelling([("a.txt", [(5, "Thsi is a test")])], dict, lib) == [("a.txt", [(5, "Thsi", "This")])]
  {
    var pfiles: PatchedFiles := [("a.txt", [(5, "Thsi is a test")])];
    CheckSpellingIsReference(pfiles, dict, lib);
    var words := ["Thsi", "is", "a", "test"];
    var w1, w2, w3 := words[1..], words[2..], words[3..];
    assert w1[1..] == w2 && w2[1..] == w3 && w3[1..] == [];
    assert WordFixes(5, w3, dict, lib) == [];
    assert WordFixes(5, w2, dict, lib) == [];
    assert WordFixes(5, w1, dict, lib) == [];
    assert WordFixes(5, words, dict, lib) == [(5, "Thsi", "This")];
    assert FileFixes([(5, "Thsi is a test")], dict, lib) == [(5, "Thsi", "This")];
    var bs := FixBlocks(pfiles, dict, lib);
    assert bs == [("a.txt", [(5, "Thsi", "This")])];
    assert NonEmptyOnly(bs) == [bs[0]] + NonEmptyOnly(bs[1..]);
  }
}

=== FILE: wrappers.dfy ===
/** The optional-value datatype shared by the other modules. */
module Wrappers {

  /** A value that may be absent: Python's `None` versus a present value. */
  datatype Option<+T> = None | Some(value: T)
}
